=== FILE: README.md ===
# media_utils in Dafny

A model of the four scripts at the heart of media_utils, with proofs about what they do.

- **Rename planner and mover** (media_process.py).
  - `get_timestamp` works out, for a photo or a video, the sub-directory it belongs in and a name prefix.
    - For a photo, the sub-directory is the first two fields of the EXIF date joined by `os.sep`. The prefix is the EXIF value with every ':' and ' ' removed.
    - For a video, the sub-directory is `YYYY/MM` and the prefix is `YYYYMMDDhhmmss`, both taken from the chosen date.
  - `process_file` walks a directory tree and collects at most one (source, destination) pair per file.
    - Files that are empty, lie under `root/skipped`, or already sit at their destination get no pair.
    - Files it cannot date go to `root/skipped`.
  - `move_file` refuses the whole batch when a destination is a larger, different file. Otherwise it moves the files in order.
- **Duplicate-hash log** (dedup.py). `dedup` sorts a log of `hash<TAB>path` lines. It prints an `rm` command for both lines of every adjacent pair with equal hashes.
- **Tilde backups** (deduplicate_photos.py). `process_dir` handles every `name~` backup in one directory:
  - deletes it when the original exists with the same positive size;
  - keeps it when the sizes differ;
  - renames it to the original's name when there is no original.
- **EXIF year fix** (change_exif.py). `process_file` rewrites a JPEG's EXIF `DateTime` to `2016:03:15 15:00` when its first number is 1982.

How the model is built:

- Files and directories are values:
  - a map from path to contents and modification time (`Mover.Fs`);
  - a tree of directory entries in listing order (`Plan.Node`);
  - one directory's files and sub-directories (`TildeBackups.DirState`).
- Every operation is a pure function, or a method with a loop.
- Exceptions are explicit outcomes:
  - `Lookup.Invalid` for the `ValueError`s the planner catches;
  - `Lookup.Fatal` and `Plan.Aborted` for the `IndexError` nothing catches;
  - `Mover.Refused` and `Mover.Crashed`;
  - `TildeBackups.Raised`;
  - `ExifYear.Raised`.
- The outside world becomes inputs:
  - what PIL decodes (`Timestamp.ImageRead`);
  - the Windows property store (`Timestamp.PropRead`);
  - the file's mtime;
  - the clock;
  - `dateparser.parse` (`Env.parseName`);
  - `piexif.load`'s dictionary (`ExifYear.Exif`).

Modules:

| file | module | models |
|---|---|---|
| text.dfy | Text | `str.split` on one-character separators, joins, `basename`, `splitext`, ASCII `lower`/`isdigit` |
| clock.dfy | Clock | naive `datetime` fields, `(a - b).days`, `a < b`, the two `strftime` layouts |
| timestamp.dfy | Timestamp | `get_timestamp` |
| plan.dfy | Plan | `process_file` and `main`'s concatenation |
| walk.dfy | Walk | the plan restated over the tree's regular files in listing order, decided one by one |
| mover.dfy | Mover | `move_file`, `filecmp.cmp` (shallow), `shutil.move` |
| hashlog.dfy | HashLog | `dedup`, Python's `sorted` on `str` |
| tilde.dfy | TildeBackups | `process_dir` |
| exif_year.dfy | ExifYear | change_exif.py's `process_file`, `int()` and `regex.split("\:|\s", …)` |

## Model

| member | source | states |
|---|---|---|
| Text.SplitJoin | media_process.py:36 | joining the parts of a `split(c)` with `c` gives back the original string |
| Text.JoinSplit | media_process.py:36 | splitting a join of separator-free parts gives back the parts |
| Text.SplitCount | media_process.py:36 | `split` yields one more part than there are separators |
| Text.SplitAfterPart | media_process.py:36 | a separator-free part followed by a separator splits off as the first part, and the rest splits on its own |
| Text.AdjacentSeparators | change_exif.py:22 | two separators in a row give an empty part, at a position after the first |
| Text.BaseNameOfJoin | media_process.py:87-97 | the base name of `join(dir, name)` is `name` when `name` holds no separator |
| Text.ExtensionOfPrefixed | media_process.py:24-25 | prepending text to a name that has an extension keeps that extension |
| Text.Digits | media_process.py:43 | `filter(str.isdigit, fn)` keeps only digits and never lengthens the name; an all-digit name is kept whole and a digit-free name becomes empty |
| Text.DigitsAppend | media_process.py:43 | the digits kept from a concatenation are the digits of each part, in the order they appear |
| Clock.FormatPrefix | media_process.py:18 | `%Y%m%d%H%M%S` is fourteen digits that read back as year, month, day, hour, minute and second |
| Clock.FormatPath | media_process.py:19 | `%Y/%m` is the first six digits of the prefix with a slash after the year |
| Clock.PrefixDeterminesFields | media_process.py:55 | two instants with the same prefix agree on every field down to the second |
| Clock.DaysAgo | media_process.py:47 | `(now - t).days` is the number of whole days in the gap, rounded towards minus infinity |
| Clock.BeforeIsEarlier | media_process.py:52 | `a < b` on naive datetimes holds exactly when `a` comes first on the time line |
| Clock.InWindowBefore | media_process.py:47 | a date inside the window lies before `now`, by at least one day |
| Timestamp.KindByExtension | media_process.py:24-25 | a name with an extension, in any directory, takes the image branch exactly for `.jpg`/`.jpeg` in any case, the video branch exactly for the five video extensions, and neither otherwise |
| Timestamp.ExtensionCaseIgnored | media_process.py:40 | `.JPG` and `.JpEg` are images and `.MOV` a video after `lower()`; `.PNG` is neither |
| Timestamp.ExifStamp | media_process.py:36-37 | the EXIF value is found iff it has one space and a colon in its date part; a wrong number of spaces is a ValueError; a date without a colon is the uncaught IndexError; the prefix is the value with every ':' and ' ' removed |
| Timestamp.ExifStampOfFields | media_process.py:36-37 | `Y:M:D h:m:s` gives sub-path `Y<sep>M`, prefix `YMDhms`, and a name change |
| Timestamp.SampleImageStamp | test_rename_media.py:8-10 | `get_timestamp` on `20140822132330_DSC_0016.JPG` in any directory, whose EXIF block holds DateTimeOriginal `2014:08:22 13:23:30`, takes the image branch despite the upper-case extension and gives the sub-path `2014<sep>08` (`2014/08` when `os.sep` is '/') and the prefix `20140822132330` |
| Timestamp.ImageStamp | media_process.py:26-60 | an image PIL cannot identify is a ValueError; an image without an EXIF block falls through to `Unsupported file`; a dated image always asks for the name change |
| Timestamp.OriginalTagWins | media_process.py:31-33 | with DateTimeOriginal present, DateTime is never read |
| Timestamp.DateTimeFallback | media_process.py:31-33 | without DateTimeOriginal, the DateTime value is read, exactly as if it had been stored under DateTimeOriginal |
| Timestamp.MissingDateTagsRejected | media_process.py:32-35 | an image with neither date tag is rejected with a ValueError, not skipped |
| Timestamp.ChooseVideo | media_process.py:47-54 | a property date inside the window wins; otherwise the name's date replaces mtime, and the name is kept, exactly when that date is inside the window and earlier than mtime; in every other case the result is mtime with a name change |
| Timestamp.VideoStamp | media_process.py:40-57 | a video is dated iff the property store answers; the name is kept exactly when the property date is unusable and the date read from the name's digits is plausible and earlier than mtime; the prefix encodes the property date when usable, else that name date when the name is kept, else mtime; the sub-path is the prefix's year and month around '/' |
| Timestamp.GetTimestamp | media_process.py:22-60 | an image's lookup is the EXIF reading of `ImageStamp` with `os.sep`, a video's is the property-store reading of `VideoStamp`, and other extensions are `Unsupported file`; only an image can raise the uncaught error; a dated image asks for the name change; a video is dated iff the property store answers, and keeps its name exactly when the property date is unusable and the name's date wins |
| Timestamp.ImageLookupIgnoresOtherSources | media_process.py:25-37 | an image's lookup depends only on its EXIF block, not on its name, mtime, the clock or the property store |
| Plan.Route | media_process.py:87-103 | a ValueError sends the file to `root/skipped/<base>`; only the uncaught error aborts; a found timestamp plans nothing exactly when the name carries `prefix_` and the file already sits in the sub-directory, and otherwise moves it into the sub-directory under its name or `prefix_` and its name; every placed destination lies under the root and ends with the file's base name |
| Plan.DecideFile | media_process.py:81-103 | empty files and paths under `skipped` are left alone; the file aborts iff it is non-empty, not skipped and its lookup raises the uncaught error |
| Plan.DecideFileRouted | media_process.py:88-103 | a non-empty file outside `skipped` whose lookup is a ValueError goes to `root/skipped/<base>`, and one whose timestamp is found goes into the stamp's sub-directory, or nowhere when it is already there |
| Plan.FoundDestination | media_process.py:90-99 | a found timestamp never aborts; nothing is planned exactly when the name carries `prefix_` and the file already sits at `root/subpath/name`; otherwise the destination is `root/subpath/<name>`, whose name is `prefix_` plus the old name exactly when the lookup asks for a new name and the old name lacks the prefix, and the old name otherwise |
| Plan.PlacedNameCarriesPrefix | media_process.py:90-97 | after a renaming move, the new base name starts with `prefix_` |
| Plan.ImageRerunIsNoOp | media_process.py:87-94 | planning again at an image's destination, with the same EXIF block, plans nothing |
| Plan.RejectedStaysPut | media_process.py:85-86 | a file moved to `root/skipped` is never planned again |
| Plan.KeptNameRerunMovesOntoItself | media_process.py:91-99 | a video kept under its own name is planned again as a move onto itself |
| Plan.ProcessNode | media_process.py:78-108 | only the month-less EXIF date ends a walk, and a tree yields at most one pair per file |
| Plan.ProcessChildren | media_process.py:105-108 | the entries of a directory yield at most one pair per file below them, and only the month-less EXIF date ends the loop |
| Plan.NodeAbortInside | media_process.py:78-108 | the file whose lookup ends a walk lies inside the walked path |
| Plan.NodePlanShape | media_process.py:78-108 | a tree's plan has at most one pair per file; every source lies under the walked path and every destination under the root; only the month-less EXIF date ends a walk |
| Plan.PlanRoots | media_process.py:111-114 | only the month-less EXIF date ends `main`'s loop, and the file that ends it lies under one of the given roots |
| Plan.PlanRootsUnderRoots | media_process.py:111-114 | every pair `main` plans lands under one of the given roots |
| Walk.Entries | media_process.py:104-107 | the flattened tree has one entry per regular file |
| Walk.RunEntriesMeaning | media_process.py:81-107 | a run over files raises exactly when some file's lookup raises, at the first such file and with the month-less date as reason; otherwise it plans the placed pairs in order |
| Walk.RunAppend | media_process.py:106-107 | deciding two lists of files one after the other is deciding their concatenation: the first abort wins, and plans are concatenated |
| Walk.NodeIsRun | media_process.py:78-108 | the recursive walk of `process_file` plans exactly what deciding the tree's files in listing order plans |
| Walk.ChildrenIsRun | media_process.py:105-108 | a directory's entries from a given index on plan exactly what deciding their files in listing order plans |
| Walk.PlanRootsIsRun | media_process.py:111-114 | `main`'s loop plans exactly what deciding the files of every root path, root after root, plans |
| Walk.ProcessNodeMeaning | media_process.py:78-108 | `process_file` raises exactly when some file's lookup raises, at the first such file in listing order; otherwise its plan is one pair per placed file, in listing order |
| Walk.PlanRootsMeaning | media_process.py:111-114 | `main` raises exactly when some file under some root raises, at the first such file; otherwise its plan is the placed pairs of all roots, in argument and listing order |
| Mover.Precheck | media_process.py:64-67 | the check passes iff no destination is an existing, different, larger file; a refusal names such a pair; comparing against a missing source raises |
| Mover.SameFile | media_process.py:65 | the shallow `filecmp.cmp` says equal for files of equal size and equal mtime without reading them, and for identical contents; it says different for different sizes; when the mtimes differ it says equal only for identical contents |
| Mover.MoveOne | media_process.py:75 | `shutil.move` puts the source's data at the destination, removes the source, and touches nothing else |
| Mover.ApplyMoves | media_process.py:69-75 | a move whose source has gone missing raises, naming a planned source that is absent afterwards; after a full run the last destination exists |
| Mover.MoveFiles | media_process.py:63-75 | a failing check means nothing moves; a refusal names a clashing pair; `dump_only` changes nothing, and with a passing check it returns normally; without `dump_only` a passing check leads to the moves, which end normally or raise on a vanished source |
| Mover.ApplyIndependent | media_process.py:69-75 | for moves that do not interfere, each destination ends with its source's data, each source that is nobody's destination is gone, and every other path is untouched |
| Mover.MoveFilesCarriesOutPlan | media_process.py:63-75 | a non-interfering plan that passes the check is carried out in full |
| HashLog.LessEqTotal | dedup.py:9 | Python's string order is total |
| HashLog.LessEqTrans | dedup.py:9 | Python's string order is transitive |
| HashLog.LessEqAntisym | dedup.py:9 | Python's string order is antisymmetric |
| HashLog.SortLines | dedup.py:9 | `sorted` returns an ordered permutation of the lines |
| HashLog.SortedUnique | dedup.py:9 | a multiset of strings has only one sorted arrangement, so any correct sort gives the same order |
| HashLog.HashOfIsSplit | dedup.py:13 | the hash scan agrees with `line.split('\t')[0]` |
| HashLog.HashIsField | dedup.py:13 | the hash is tab-free, starts the line, and is followed by a tab or the end of the line |
| HashLog.HashOfRecord | dedup.py:13 | the line `h<TAB>path` has hash `h`, whatever the path holds |
| HashLog.RenderInjective | dedup.py:15-16 | within one directory, distinct `rm` commands print as distinct lines |
| HashLog.Scan | dedup.py:10-18 | the loop counts every line, and after each line its output is the two `rm` commands of every line so far whose hash equals the one held from the line before |
| HashLog.Dedup | dedup.py:5-19 | the count is the number of log lines, and a line is named by an `rm` exactly when its hash equals a neighbour's in sorted order (or it is the empty `last_line` before an empty first hash) |
| HashLog.RemovedExactly | dedup.py:11-16 | the whole output names exactly the lines in an equal-hash neighbour pair |
| HashLog.PairRemoved | dedup.py:14-16 | both lines of an adjacent equal-hash pair are deleted |
| HashLog.MiddleOfThree | dedup.py:14-16 | in a run of three equal hashes the middle line is deleted twice |
| HashLog.RunPrefix | dedup.py:11-18 | the output after some lines is a prefix of the output after any later line |
| HashLog.RunGrows | dedup.py:11-18 | commands once printed stay printed |
| HashLog.LoneLineKept | dedup.py:11-18 | a sorted line whose hash differs from both neighbours is not deleted |
| TildeBackups.Original | deduplicate_photos.py:91 | the original's name plus `~` is the backup's name |
| TildeBackups.Candidates | deduplicate_photos.py:89 | an empty name raises before anything changes; otherwise the candidates are exactly the listed names ending in `~` |
| TildeBackups.CandidatesAppend | deduplicate_photos.py:89 | the candidates of a listing are the candidates of its parts, in listing order |
| TildeBackups.CandidatesSingle | deduplicate_photos.py:89 | a single name is a candidate exactly when it ends in `~` |
| TildeBackups.Reconcile | deduplicate_photos.py:90-104 | a missing backup, the names `~`, `.~` and `..~` (whose originals are the directory itself or its parent), or a missing original that is a sub-directory raises; an equal positive size deletes the backup and adds its size; other sizes keep both; no original means a rename; no other path changes |
| TildeBackups.DirectoryBackupsRaise | deduplicate_photos.py:91-102 | the backups `~`, `.~` and `..~` make `process_dir` raise, whatever else the directory holds |
| TildeBackups.ReconcileConserves | deduplicate_photos.py:95-99 | a step takes from the directory exactly the bytes it adds to `total_saved` |
| TildeBackups.Sweep | deduplicate_photos.py:89-104 | the loop never touches sub-directories, finishes in the directory it was given, and never lowers `total_saved` |
| TildeBackups.ProcessDir | deduplicate_photos.py:86-105 | an empty name raises with the directory unchanged; sub-directories are never touched; a finished run returns `r` |
| TildeBackups.ProcessDirFrame | deduplicate_photos.py:89-104 | files that are neither a listed backup nor the original of one are left alone |
| TildeBackups.SweepIndependent | deduplicate_photos.py:89-104 | for backups that cannot interfere, the loop finishes and each backup is deleted, kept or recovered as judged against the directory as listed |
| TildeBackups.SweepIndependentSaved | deduplicate_photos.py:87-96 | for such backups, `total_saved` is the summed size of the deleted backups |
| TildeBackups.ProcessDirIndependent | deduplicate_photos.py:86-105 | for a listing whose backups cannot interfere, `process_dir` returns `r`, `total_saved` is the summed size of the deleted backups, and every listed backup is deleted, kept or recovered as judged against the directory as listed |
| ExifYear.ParseInt | change_exif.py:22 | `int(s)` accepts exactly an optional sign and digits with single underscores between them; the sign decides the sign of the value |
| ExifYear.ParseShow | change_exif.py:22 | `int(str(n)) == n` |
| ExifYear.ParseAll | change_exif.py:22 | all tokens are integers iff each parses; otherwise the failing token is one of them and does not parse |
| ExifYear.Tokens | change_exif.py:22 | the split yields one more token than there are separators, no token holds a colon or white space, and the tokens run together are the value with every separator removed |
| ExifYear.FixYear | change_exif.py:14-24 | non-`jpg` names are ignored; a missing EXIF block or `DateTime` raises; the run raises on a rejected token exactly when the value does not split into integers, and that token comes from the value; otherwise the value is rewritten exactly when the first integer is 1982 and left unchanged exactly when it is not; only `0th`/`DateTime` changes |
| ExifYear.ExifTextTokens | change_exif.py:22 | the camera layout `YYYY:MM:DD hh:mm:ss` parses to integers whose first is the year |
| ExifYear.RewrittenIffYear1982 | change_exif.py:23-24 | for a camera-layout value, the file is rewritten iff the year is 1982, and otherwise left unchanged |
| ExifYear.ReplacementYear | change_exif.py:24 | the replacement value reads as the year 2016 |
| ExifYear.FixYearIdempotent | change_exif.py:14-24 | running the fix on its own output changes nothing |
| ExifYear.EmptyTokenRaises | change_exif.py:22 | any `DateTime` value with two separators in a row makes the run raise on an empty token, whatever its year |

## Left out

- PIL, the Windows property store, `dateparser`, `piexif`, the clock and file mtimes are not modelled: their answers are parameters.
- Image decoding and saving are not modelled. Neither is `piexif.dump`: the rewritten EXIF dictionary is the result.
- Text is Unicode code points with ASCII semantics. `str.lower`, `str.isdigit`, the regex class `\s` and `int()` are modelled on ASCII only. Unicode digits, and white space other than space, tab, line feed, carriage return, vertical tab and form feed, are not covered.
- Paths are joined with one separator character. Windows drive letters, the alternative separator `/` on Windows, and `os.path.join`'s absolute-path reset are not modelled.
- `os.path.relpath` is computed from the entry names walked. `os.listdir` order is the order of `Node.children`.
- Mover does not model directories, so `os.makedirs` has no counterpart.
- A directory whose listing changes during the walk is not modelled.
- The `print` output of `move_file`, `process_dir` and `process_file` is not modelled, except `dedup`'s `rm` lines.
- `dedup` takes the log's directory and lines as inputs. `dirname` and reading the file are not modelled.
- HashLog.Dedup returns commands as values; `HashLog.Render` prints one as `rm dir/path`.
- `dup`, `run_parallel3` and the other helpers of deduplicate_photos.py are not modelled. Neither are change_exif.py's `main`, check_timestamp.py, the progress bar, nor the `__main__` blocks.
- TildeBackups.SweepIndependentSaved: the claim that the directory shrinks by exactly `total_saved` is proved step by step (ReconcileConserves), not for a whole run.
- TildeBackups.SweepIndependentSaved and TildeBackups.SweepIndependent: backups that interfere are not covered. An example is `a~` listed together with `a~~`.
- TildeBackups.ProcessDirIndependent: the same restriction applies. Listings whose backups interfere, and listings holding `~`, `.~` or `..~`, are not covered; for the latter `DirectoryBackupsRaise` states that the run raises.
- TildeBackups.Reconcile: a listed backup that is itself a sub-directory is treated as an error in every case. The source raises only when an original file has the same positive size as the size reported for the directory, because `os.remove` (line 99) fails on a directory. It keeps the directory when the sizes differ. It renames the directory, whatever its size, when there is no original.
- Plan.FoundDestination: assumes the prefix holds no separator and the separator is not `_`.
- Plan.ImageRerunIsNoOp: makes the same two assumptions.
- Plan.PlacedNameCarriesPrefix: makes the same two assumptions. The separator is never `_` on Windows or POSIX. Video prefixes are fourteen digits, so they hold no separator. An image prefix is its EXIF value with ':' and ' ' removed, so it holds a separator whenever the value does: `1:2 3/4` gives the prefix `123/4`. Such images are not covered.
- Timestamp.SampleImageStamp: the sample photo is not part of this model; its EXIF time, read off its file name, is the input. The test expects `2014/08`, which needs `os.sep == '/'`, while lines 3-4 of media_process.py import modules that exist only on Windows. The test also unpacks two values from the triple `get_timestamp` returns, which Python rejects; the lemma states the first two components of the triple.
- Timestamp.ChooseVideo: lines 47 and 52 each call `datetime.now()`, but the model reads one `Env.now` for both. A clock that moves between the two calls is not modelled.
- ExifYear.FixYear: a UTF-8 decoding error of the stored value is not modelled; values are kept as text.

=== FILE: clock.dfy ===
/** Python `datetime` values as the rename planner uses them: the naive
    calendar fields, CPython's proleptic-Gregorian day arithmetic behind
    `(a - b).days`, the field-wise comparison behind `a < b`, and the two
    `strftime` layouts of media_process.py (`%Y/%m` and `%Y%m%d%H%M%S`). */
module Clock {
  import opened Text

  datatype DateTime = DateTime(year: int, month: int, day: int, hour: int, minute: int, second: int, micro: int)

  predicate IsLeap(y: int) {
    y % 4 == 0 && (y % 100 != 0 || y % 400 == 0)
  }

  function DaysInMonth(y: int, m: int): int
    requires 1 <= m <= 12
  {
    if m == 2 then (if IsLeap(y) then 29 else 28)
    else if m == 4 || m == 6 || m == 9 || m == 11 then 30
    else 31
  }

  /** The field ranges a Python `datetime` object always satisfies. */
  predicate Valid(d: DateTime) {
    && 1 <= d.year <= 9999
    && 1 <= d.month <= 12
    && 1 <= d.day <= DaysInMonth(d.year, d.month)
    && 0 <= d.hour < 24
    && 0 <= d.minute < 60
    && 0 <= d.second < 60
    && 0 <= d.micro < 1000000
  }

  type Instant = d: DateTime | Valid(d) witness DateTime(1970, 1, 1, 0, 0, 0, 0)

  /** CPython's `_days_before_year`. */
  function DaysBeforeYear(y: int): int {
    var p := y - 1;
    p * 365 + p / 4 - p / 100 + p / 400
  }

  /** CPython's `_days_before_month`. */
  function DaysBeforeMonth(y: int, m: int): int
    requires 1 <= m <= 12
  {
    [0, 31, 59, 90, 120, 151, 181, 212, 243, 273, 304, 334][m - 1]
      + (if m > 2 && IsLeap(y) then 1 else 0)
  }

  /** CPython's `toordinal`: 1 January of year 1 is day 1. */
  function Ordinal(d: Instant): int {
    DaysBeforeYear(d.year) + DaysBeforeMonth(d.year, d.month) + d.day
  }

  /** Microseconds since the start of the proleptic calendar. */
  function Micros(d: Instant): int {
    (((Ordinal(d) * 24 + d.hour) * 60 + d.minute) * 60 + d.second) * 1000000 + d.micro
  }

  const MicrosPerDay: int := 86400000000

  /** `(now - t).days`: whole days, rounded towards minus infinity as
      `timedelta` normalises them (Dafny's `/` by a positive divisor floors). */
  function DaysAgo(now: Instant, t: Instant): (days: int)
    ensures days * MicrosPerDay <= Micros(now) - Micros(t) < (days + 1) * MicrosPerDay
  {
    (Micros(now) - Micros(t)) / MicrosPerDay
  }

  /** The plausibility window of media_process.py: strictly between zero and
      five 365-day years ago. */
  const WindowDays: int := 5 * 365

  predicate InWindow(now: Instant, t: Instant) {
    0 < DaysAgo(now, t) < WindowDays
  }

  /** `a < b` on naive datetimes: field by field, most significant first. */
  predicate Before(a: Instant, b: Instant) {
    if a.year != b.year then a.year < b.year
    else if a.month != b.month then a.month < b.month
    else if a.day != b.day then a.day < b.day
    else if a.hour != b.hour then a.hour < b.hour
    else if a.minute != b.minute then a.minute < b.minute
    else if a.second != b.second then a.second < b.second
    else a.micro < b.micro
  }

  /** Microseconds since midnight. */
  function TimeOfDay(d: Instant): int {
    ((d.hour * 60 + d.minute) * 60 + d.second) * 1000000 + d.micro
  }

  lemma MicrosSplit(d: Instant)
    ensures Micros(d) == Ordinal(d) * MicrosPerDay + TimeOfDay(d)
    ensures 0 <= TimeOfDay(d) < MicrosPerDay
  {
  }

  /** A year has 365 days, or 366 when it is a leap year. */
  lemma YearLength(y: int)
    ensures DaysBeforeYear(y + 1) - DaysBeforeYear(y) == if IsLeap(y) then 366 else 365
  {
    DivStep4(y);
    DivStep100(y);
    DivStep400(y);
  }

  lemma DivStep4(q: int)
    ensures q / 4 - (q - 1) / 4 == if q % 4 == 0 then 1 else 0
  {
  }

  lemma DivStep100(q: int)
    ensures q / 100 - (q - 1) / 100 == if q % 100 == 0 then 1 else 0
  {
  }

  lemma DivStep400(q: int)
    ensures q / 400 - (q - 1) / 400 == if q % 400 == 0 then 1 else 0
  {
  }

  lemma {:induction false} YearsAdvance(y1: int, y2: int)
    requires y1 < y2
    ensures DaysBeforeYear(y1) + 365 <= DaysBeforeYear(y2)
    decreases y2 - y1
  {
    YearLength(y1);
    if y1 + 1 < y2 {
      YearsAdvance(y1 + 1, y2);
    }
  }

  /** The months of a year, laid end to end, fill the year. */
  lemma MonthsAdvance(y: int, m1: int, m2: int)
    requires 1 <= m1 < m2 <= 12
    ensures DaysBeforeMonth(y, m1) + DaysInMonth(y, m1) <= DaysBeforeMonth(y, m2)
  {
  }

  lemma MonthInYear(y: int, m: int)
    requires 1 <= m <= 12
    ensures DaysBeforeMonth(y, m) + DaysInMonth(y, m) <= if IsLeap(y) then 366 else 365
  {
  }

  /** Calendar order on dates is order on day numbers. */
  lemma OrdinalOrder(a: Instant, b: Instant)
    requires a.year < b.year || (a.year == b.year && (a.month < b.month || (a.month == b.month && a.day < b.day)))
    ensures Ordinal(a) < Ordinal(b)
  {
    if a.year < b.year {
      YearLength(a.year);
      MonthInYear(a.year, a.month);
      if a.year + 1 < b.year {
        YearsAdvance(a.year + 1, b.year);
      }
    } else if a.month < b.month {
      MonthsAdvance(a.year, a.month, b.month);
    }
  }

  /** Within one day, field-wise order is order on the time of day. */
  lemma TimeOrder(a: Instant, b: Instant)
    requires a.hour < b.hour || (a.hour == b.hour && (a.minute < b.minute
             || (a.minute == b.minute && (a.second < b.second || (a.second == b.second && a.micro < b.micro)))))
    ensures TimeOfDay(a) < TimeOfDay(b)
  {
  }

  /** Python's field-wise `a < b` on naive datetimes is the order of the
      time line: `a` comes first exactly when it has fewer microseconds. */
  lemma {:induction false} BeforeIsEarlier(a: Instant, b: Instant)
    ensures Before(a, b) <==> Micros(a) < Micros(b)
  {
    MicrosSplit(a);
    MicrosSplit(b);
    if a.year == b.year && a.month == b.month && a.day == b.day {
      if Before(a, b) {
        TimeOrder(a, b);
      } else if a.hour == b.hour && a.minute == b.minute && a.second == b.second && a.micro == b.micro {
      } else {
        TimeOrder(b, a);
      }
    } else if Before(a, b) {
      OrdinalOrder(a, b);
    } else {
      OrdinalOrder(b, a);
    }
  }

  /** A date inside the window lies strictly before `now`. */
  lemma InWindowBefore(now: Instant, t: Instant)
    requires InWindow(now, t)
    ensures Before(t, now)
    ensures Micros(now) - Micros(t) >= MicrosPerDay
  {
    BeforeIsEarlier(t, now);
  }

  function DigitChar(d: int): char
    requires 0 <= d < 10
  {
    ('0' as int + d) as char
  }

  function DigitValue(c: char): int {
    c as int - '0' as int
  }

  /** The number a string of decimal digits denotes. */
  function DecimalValue(s: string): int
    decreases |s|
  {
    if |s| == 0 then 0 else DecimalValue(s[..|s| - 1]) * 10 + DigitValue(s[|s| - 1])
  }

  /** `%m`, `%d`, `%H`, `%M`, `%S`: two digits, zero padded. */
  function Pad2(n: int): (r: string)
    requires 0 <= n < 100
    ensures |r| == 2 && AllDigits(r)
    ensures DecimalValue(r) == n
  {
    var r := [DigitChar(n / 10), DigitChar(n % 10)];
    assert r[..1] == [r[0]] && r[..1][..0] == [];
    assert DecimalValue(r[..1]) == n / 10;
    r
  }

  /** `%Y`: four digits, zero padded. */
  function Pad4(n: int): (r: string)
    requires 0 <= n < 10000
    ensures |r| == 4 && AllDigits(r)
    ensures DecimalValue(r) == n
  {
    var r := [DigitChar(n / 1000), DigitChar(n / 100 % 10), DigitChar(n / 10 % 10), DigitChar(n % 10)];
    assert r[..3][..2][..1] == [r[0]] && r[..3][..2][..1][..0] == [];
    assert r[..3][..2] == [r[0], r[1]];
    assert r[..3] == [r[0], r[1], r[2]];
    assert DecimalValue(r[..3][..2][..1]) == n / 1000;
    assert DecimalValue(r[..3][..2]) == n / 100;
    assert DecimalValue(r[..3]) == n / 10;
    r
  }

  /** `strftime(t, '%Y%m%d%H%M%S')`: fourteen digits that read back as the
      six calendar fields of `t`. */
  function FormatPrefix(t: Instant): (r: string)
    ensures |r| == 14 && AllDigits(r)
    ensures DecimalValue(r[0..4]) == t.year && DecimalValue(r[4..6]) == t.month
    ensures DecimalValue(r[6..8]) == t.day && DecimalValue(r[8..10]) == t.hour
    ensures DecimalValue(r[10..12]) == t.minute && DecimalValue(r[12..14]) == t.second
  {
    var y, mo, d, h, mi, s := Pad4(t.year), Pad2(t.month), Pad2(t.day), Pad2(t.hour), Pad2(t.minute), Pad2(t.second);
    var r := y + mo + d + h + mi + s;
    assert r[0..4] == y && r[4..6] == mo && r[6..8] == d;
    assert r[8..10] == h && r[10..12] == mi && r[12..14] == s;
    assert forall j :: 0 <= j < 14 ==> r[j] in y + mo + d + h + mi + s;
    r
  }

  /** `strftime(t, '%Y/%m')`: the year and month digits of the prefix, with
      a literal slash between them. */
  function FormatPath(t: Instant): (r: string)
    ensures |r| == 7 && r[4] == '/'
    ensures r == FormatPrefix(t)[..4] + "/" + FormatPrefix(t)[4..6]
  {
    Pad4(t.year) + "/" + Pad2(t.month)
  }

  /** Two instants with the same prefix agree on every field down to the second. */
  lemma PrefixDeterminesFields(a: Instant, b: Instant)
    requires FormatPrefix(a) == FormatPrefix(b)
    ensures a.year == b.year && a.month == b.month && a.day == b.day
    ensures a.hour == b.hour && a.minute == b.minute && a.second == b.second
  {
  }
}

=== FILE: exif_year.dfy ===
/** `process_file` of change_exif.py: a JPEG whose EXIF `DateTime` starts
    with the year 1982 gets the fixed value `2016:03:15 15:00` instead. The
    EXIF block is the dictionary `piexif.load` yields: IFD name to tag
    number to value; values are kept as decoded text. */
module ExifYear {
  import opened Text
  import opened Clock

  type Exif = map<string, map<int, string>>

  const Zeroth: string := "0th"

  /** The number `ExifTags.TAGS` gives the name `DateTime`. */
  const DateTimeTag: int := 306

  const Replacement: string := "2016:03:15 15:00"

  /** The characters the pattern `\:|\s` matches: a colon or ASCII white space. */
  const Separators: set<char> := {':', ' ', '\t', '\n', '\r', 11 as char, 12 as char}

  /** Digits with single underscores between them, as Python's `int` accepts. */
  predicate DigitRun(s: string) {
    && |s| > 0 && IsDigit(s[0]) && IsDigit(s[|s| - 1])
    && (forall j :: 0 <= j < |s| ==> IsDigit(s[j]) || s[j] == '_')
    && (forall j :: 0 <= j < |s| - 1 ==> !(s[j] == '_' && s[j + 1] == '_'))
  }

  /** The number a digit run denotes, underscores ignored. */
  function RunValue(s: string): (v: nat)
    requires DigitRun(s)
  {
    var d := Remove(s, {'_'});
    assert AllDigits(d) by {
      RemoveKeepsDigits(s);
    }
    DecimalValueNonNegative(d);
    DecimalValue(d)
  }

  lemma {:induction false} RemoveKeepsDigits(s: string)
    requires forall j :: 0 <= j < |s| ==> IsDigit(s[j]) || s[j] == '_'
    ensures AllDigits(Remove(s, {'_'}))
    decreases |s|
  {
    if |s| > 0 {
      RemoveKeepsDigits(s[1..]);
    }
  }

  /** Python's `int(s)` on ASCII text without surrounding white space: an
      optional sign, then a digit run; leading zeros are allowed. */
  function ParseInt(s: string): (r: Option<int>)
    ensures r.Some? <==> (DigitRun(s) || (|s| > 0 && (s[0] == '+' || s[0] == '-') && DigitRun(s[1..])))
    ensures r.Some? && |s| > 0 && s[0] == '-' ==> r.value <= 0
    ensures r.Some? && |s| > 0 && s[0] != '-' ==> r.value >= 0
  {
    if DigitRun(s) then Some(RunValue(s))
    else if |s| > 0 && s[0] == '+' && DigitRun(s[1..]) then Some(RunValue(s[1..]))
    else if |s| > 0 && s[0] == '-' && DigitRun(s[1..]) then Some(0 - RunValue(s[1..]))
    else None
  }

  lemma {:induction false} DecimalValueNonNegative(s: string)
    requires AllDigits(s)
    ensures DecimalValue(s) >= 0
    decreases |s|
  {
    if |s| > 0 {
      DecimalValueNonNegative(s[..|s| - 1]);
    }
  }

  /** `str(n)` for a natural number. */
  function ShowNat(n: nat): (r: string)
    ensures |r| > 0 && AllDigits(r)
    ensures DecimalValue(r) == n
    decreases n
  {
    if n < 10 then
      var r := [DigitChar(n)];
      assert r[..0] == [];
      r
    else
      var r := ShowNat(n / 10) + [DigitChar(n % 10)];
      assert r[..|r| - 1] == ShowNat(n / 10);
      r
  }

  /** `str(n)`. */
  function ShowInt(n: int): string {
    if n < 0 then "-" + ShowNat(-n) else ShowNat(n)
  }

  lemma {:induction false} RemoveAbsent(s: string, seps: set<char>)
    requires Free(s, seps)
    ensures Remove(s, seps) == s
    decreases |s|
  {
    if |s| > 0 {
      RemoveAbsent(s[1..], seps);
      assert s == [s[0]] + s[1..];
    }
  }

  /** `int(str(n)) == n`. */
  lemma ParseShow(n: int)
    ensures ParseInt(ShowInt(n)) == Some(n)
  {
    var m := if n < 0 then -n else n;
    var d := ShowNat(m);
    DigitsRun(d);
    if n < 0 {
      var s := "-" + d;
      assert s[0] == '-' && s[1..] == d;
      assert ParseInt(s) == Some(0 - RunValue(d));
    } else {
      assert ParseInt(d) == Some(RunValue(d));
    }
  }

  /** A plain run of decimal digits is a digit run worth its decimal value. */
  lemma DigitsRun(d: string)
    requires |d| > 0 && AllDigits(d)
    ensures DigitRun(d) && RunValue(d) == DecimalValue(d)
  {
    RemoveAbsent(d, {'_'});
  }

  datatype Parsed = Ints(values: seq<int>) | NotAnInteger(token: string)

  /** `[int(v) for v in tokens]`: the first token `int` rejects ends it. */
  function ParseAll(tokens: seq<string>): (r: Parsed)
    ensures r.Ints? <==> forall i :: 0 <= i < |tokens| ==> ParseInt(tokens[i]).Some?
    ensures r.Ints? ==> |r.values| == |tokens| && forall i :: 0 <= i < |tokens| ==> ParseInt(tokens[i]) == Some(r.values[i])
    ensures r.NotAnInteger? ==> r.token in tokens && ParseInt(r.token).None?
    decreases |tokens|
  {
    if |tokens| == 0 then Ints([])
    else
      match ParseInt(tokens[0])
      case None => NotAnInteger(tokens[0])
      case Some(v) =>
        var rest := ParseAll(tokens[1..]);
        assert forall i :: 1 <= i < |tokens| ==> tokens[i] == tokens[1..][i - 1];
        match rest
        case NotAnInteger(t) => NotAnInteger(t)
        case Ints(vs) => Ints([v] + vs)
  }

  /** `regex.split("\:|\s", dtb)`. */
  function Tokens(dtb: string): (r: seq<string>)
    ensures |r| == Count(dtb, Separators) + 1
    ensures forall i :: 0 <= i < |r| ==> Free(r[i], Separators)
    ensures Concat(r) == Remove(dtb, Separators)
  {
    SplitCount(dtb, Separators);
    ConcatSplit(dtb, Separators);
    SplitOn(dtb, Separators)
  }

  datatype Failure = NoExif | NoDateTime | BadToken(token: string)

  datatype FixOutcome = NotJpeg | Unchanged | Rewritten(exif: Exif) | Raised(failure: Failure)

  /** The value `exif_dict['0th'][tags['DateTime']]`, when both keys exist. */
  function DateTimeOf(exif: Exif): Option<string> {
    if Zeroth in exif && DateTimeTag in exif[Zeroth] then Some(exif[Zeroth][DateTimeTag]) else None
  }

  /** `process_file(d, f)` for a file named `name` whose image carries the
      EXIF block `exif` (`None` when it carries none). */
  function FixYear(name: string, exif: Option<Exif>): (r: FixOutcome)
    ensures r.NotJpeg? <==> !EndsWith(name, "jpg")
    ensures r == Raised(NoExif) <==> EndsWith(name, "jpg") && exif.None?
    ensures r == Raised(NoDateTime) <==> EndsWith(name, "jpg") && exif.Some? && DateTimeOf(exif.value).None?
    ensures r.Raised? && r.failure.BadToken? <==>
              && EndsWith(name, "jpg") && exif.Some? && DateTimeOf(exif.value).Some?
              && ParseAll(Tokens(DateTimeOf(exif.value).value)).NotAnInteger?
    ensures r.Unchanged? <==>
              && EndsWith(name, "jpg") && exif.Some? && DateTimeOf(exif.value).Some?
              && ParseAll(Tokens(DateTimeOf(exif.value).value)).Ints?
              && ParseAll(Tokens(DateTimeOf(exif.value).value)).values[0] != 1982
    ensures r.Rewritten? <==>
              && EndsWith(name, "jpg") && exif.Some? && DateTimeOf(exif.value).Some?
              && ParseAll(Tokens(DateTimeOf(exif.value).value)).Ints?
              && ParseAll(Tokens(DateTimeOf(exif.value).value)).values[0] == 1982
    ensures r.Raised? && r.failure.BadToken? ==>
              && exif.Some? && DateTimeOf(exif.value).Some?
              && r.failure.token in Tokens(DateTimeOf(exif.value).value) && ParseInt(r.failure.token).None?
    ensures r.Rewritten? ==> exif.Some? && r.exif.Keys == exif.value.Keys
    ensures r.Rewritten? ==> DateTimeOf(r.exif) == Some(Replacement)
    ensures r.Rewritten? ==> forall k :: k in exif.value && k != Zeroth ==> r.exif[k] == exif.value[k]
    ensures r.Rewritten? ==> forall t :: t in exif.value[Zeroth] && t != DateTimeTag ==>
              t in r.exif[Zeroth] && r.exif[Zeroth][t] == exif.value[Zeroth][t]
    ensures r.Rewritten? ==> r.exif[Zeroth].Keys == exif.value[Zeroth].Keys
  {
    if !EndsWith(name, "jpg") then NotJpeg
    else if exif.None? then Raised(NoExif)
    else
      match DateTimeOf(exif.value)
      case None => Raised(NoDateTime)
      case Some(dtb) =>
        match ParseAll(Tokens(dtb))
        case NotAnInteger(t) => Raised(BadToken(t))
        case Ints(dts) =>
          if dts[0] == 1982 then
            var ifd := exif.value[Zeroth];
            Rewritten(exif.value[Zeroth := ifd[DateTimeTag := Replacement]])
          else Unchanged
  }

  /** Five separator-free fields joined by separators split back into
      those fields. */
  lemma SplitFive(seps: set<char>, a: string, b: string, c: string, d: string, e: string,
                  c1: char, c2: char, c3: char, c4: char)
    requires Free(a, seps) && Free(b, seps) && Free(c, seps) && Free(d, seps) && Free(e, seps)
    requires c1 in seps && c2 in seps && c3 in seps && c4 in seps
    ensures SplitOn(a + [c1] + (b + [c2] + (c + [c3] + (d + [c4] + e))), seps) == [a, b, c, d, e]
  {
    var t4 := d + [c4] + e;
    var t3 := c + [c3] + t4;
    var t2 := b + [c2] + t3;
    SplitFree(e, seps);
    SplitAfterPart(seps, d, c4, e);
    SplitAfterPart(seps, c, c3, t4);
    SplitAfterPart(seps, b, c2, t3);
    SplitAfterPart(seps, a, c1, t2);
  }

  /** A plain run of digits is an integer token that holds no separator. */
  lemma DigitsParse(s: string)
    requires |s| > 0 && AllDigits(s)
    ensures ParseInt(s) == Some(DecimalValue(s))
    ensures Free(s, Separators)
  {
    DigitsRun(s);
    assert ParseInt(s) == Some(RunValue(s));
    DigitsFree(s);
  }

  /** No digit is a separator. */
  lemma DigitsFree(s: string)
    requires AllDigits(s)
    ensures Free(s, Separators)
  {
    forall j | 0 <= j < |s|
      ensures s[j] !in Separators
    {
      assert IsDigit(s[j]);
    }
  }

  /** A date and time in the layout cameras write into `DateTime`:
      `YYYY:MM:DD hh:mm:ss`. */
  function ExifText(t: Instant): string {
    Pad4(t.year) + ":" + (Pad2(t.month) + ":" + (Pad2(t.day) + " " + (Pad2(t.hour) + ":" + (Pad2(t.minute) + ":" + Pad2(t.second)))))
  }

  /** The camera layout splits into its six numeric fields. */
  lemma ExifTextSplit(t: Instant)
    ensures Tokens(ExifText(t)) == [Pad4(t.year), Pad2(t.month), Pad2(t.day), Pad2(t.hour), Pad2(t.minute), Pad2(t.second)]
  {
    var y, mo, d, h, mi, se := Pad4(t.year), Pad2(t.month), Pad2(t.day), Pad2(t.hour), Pad2(t.minute), Pad2(t.second);
    DigitsParse(y);
    DigitsParse(mo);
    DigitsParse(d);
    DigitsParse(h);
    DigitsParse(mi);
    DigitsParse(se);
    var tail := mo + [':'] + (d + [' '] + (h + [':'] + (mi + [':'] + se)));
    SplitFive(Separators, mo, d, h, mi, se, ':', ' ', ':', ':');
    SplitAfterPart(Separators, y, ':', tail);
    assert ExifText(t) == y + [':'] + tail;
    assert SplitOn(ExifText(t), Separators) == [y, mo, d, h, mi, se];
  }

  lemma ExifTextTokens(t: Instant)
    ensures ParseAll(Tokens(ExifText(t))).Ints?
    ensures ParseAll(Tokens(ExifText(t))).values[0] == t.year
  {
    ExifTextSplit(t);
    var toks := Tokens(ExifText(t));
    forall i | 0 <= i < |toks|
      ensures |toks[i]| > 0 && AllDigits(toks[i])
    {
    }
    DigitRunsParse(toks);
  }

  /** On a JPEG whose `DateTime` has the camera layout, the value is
      rewritten exactly when its year is 1982. */
  lemma RewrittenIffYear1982(name: string, exif: Exif, t: Instant)
    requires EndsWith(name, "jpg")
    requires DateTimeOf(exif) == Some(ExifText(t))
    ensures FixYear(name, Some(exif)).Rewritten? <==> t.year == 1982
    ensures !FixYear(name, Some(exif)).Rewritten? ==> FixYear(name, Some(exif)) == Unchanged
  {
    ExifTextTokens(t);
  }

  /** The replacement literal, taken apart. */
  lemma ReplacementParts()
    ensures "2016" + [':'] + ("03" + [':'] + ("15" + [' '] + ("15" + [':'] + "00"))) == Replacement
    ensures AllDigits("2016") && AllDigits("03") && AllDigits("15") && AllDigits("00")
  {
  }

  lemma YearValue()
    ensures DecimalValue("2016") == 2016
  {
    var y := "2016";
    assert y[..3] == "201" && y[..3][..2] == "20" && y[..3][..2][..1] == "2" && y[..3][..2][..1][..0] == "";
    assert DecimalValue("2") == 2;
    assert DecimalValue("20") == 20;
    assert DecimalValue("201") == 201;
  }

  /** The replacement value splits into five digit runs. */
  lemma ReplacementTokens()
    ensures Tokens(Replacement) == ["2016", "03", "15", "15", "00"]
  {
    var y, mo, d, h, mi := "2016", "03", "15", "15", "00";
    ReplacementParts();
    DigitsParse(y);
    DigitsParse(mo);
    DigitsParse(d);
    DigitsParse(h);
    DigitsParse(mi);
    SplitFive(Separators, y, mo, d, h, mi, ':', ':', ' ', ':');
  }

  /** A list of plain digit runs parses in full. */
  lemma DigitRunsParse(toks: seq<string>)
    requires forall i :: 0 <= i < |toks| ==> |toks[i]| > 0 && AllDigits(toks[i])
    ensures ParseAll(toks).Ints?
    ensures forall i :: 0 <= i < |toks| ==> ParseAll(toks).values[i] == DecimalValue(toks[i])
  {
    forall i | 0 <= i < |toks|
      ensures ParseInt(toks[i]) == Some(DecimalValue(toks[i]))
    {
      DigitsParse(toks[i]);
    }
  }

  /** The replacement value reads as the year 2016. */
  lemma ReplacementYear()
    ensures ParseAll(Tokens(Replacement)).Ints?
    ensures ParseAll(Tokens(Replacement)).values[0] == 2016
  {
    var toks := ["2016", "03", "15", "15", "00"];
    ReplacementParts();
    YearValue();
    forall i | 0 <= i < |toks|
      ensures |toks[i]| > 0 && AllDigits(toks[i])
    {
    }
    DigitRunsParse(toks);
    ReplacementTokens();
  }

  /** A rewritten file is left alone by a second run. */
  lemma FixYearIdempotent(name: string, exif: Option<Exif>)
    requires FixYear(name, exif).Rewritten?
    ensures FixYear(name, Some(FixYear(name, exif).exif)) == Unchanged
  {
    ReplacementYear();
  }

  /** Two separators in a row give an empty token, and `int('')` fails, so
      the run raises whatever the year. */
  lemma EmptyTokenRaises(name: string, exif: Exif, i: int)
    requires EndsWith(name, "jpg") && DateTimeOf(exif).Some?
    requires 0 <= i && i + 1 < |DateTimeOf(exif).value|
    requires DateTimeOf(exif).value[i] in Separators && DateTimeOf(exif).value[i + 1] in Separators
    ensures FixYear(name, Some(exif)).Raised? && FixYear(name, Some(exif)).failure.BadToken?
  {
    var toks := Tokens(DateTimeOf(exif).value);
    AdjacentSeparators(DateTimeOf(exif).value, Separators, i);
    var k :| 1 <= k < |toks| && toks[k] == "";
    assert ParseInt(toks[k]).None?;
  }

}

=== FILE: hashlog.dfy ===
/** `dedup` of dedup.py: the lines of a hash log (`<hash>\t<path>`), in
    sorted order, are scanned once; whenever a line's hash equals the previous
    line's hash, an `rm` command is emitted for both lines. */
module HashLog {
  import opened Text

  /** Python's `<=` on `str`: code points compared left to right, and a
      proper prefix comes first. */
  predicate LessEq(a: string, b: string)
    decreases |a|
  {
    |a| == 0 || (|b| > 0 && (a[0] < b[0] || (a[0] == b[0] && LessEq(a[1..], b[1..]))))
  }

  lemma {:induction false} LessEqTotal(a: string, b: string)
    ensures LessEq(a, b) || LessEq(b, a)
    decreases |a|
  {
    if |a| > 0 && |b| > 0 && a[0] == b[0] {
      LessEqTotal(a[1..], b[1..]);
    }
  }

  lemma {:induction false} LessEqTrans(a: string, b: string, c: string)
    requires LessEq(a, b) && LessEq(b, c)
    ensures LessEq(a, c)
    decreases |a|
  {
    if |a| > 0 && a[0] == b[0] && b[0] == c[0] {
      LessEqTrans(a[1..], b[1..], c[1..]);
    }
  }

  lemma {:induction false} LessEqAntisym(a: string, b: string)
    requires LessEq(a, b) && LessEq(b, a)
    ensures a == b
    decreases |a|
  {
    if |a| > 0 {
      LessEqAntisym(a[1..], b[1..]);
      assert a == [a[0]] + a[1..] && b == [b[0]] + b[1..];
    }
  }

  predicate Sorted(s: seq<string>) {
    forall i, j :: 0 <= i < j < |s| ==> LessEq(s[i], s[j])
  }

  /** Inserts `x` before the first element it does not follow. */
  function Insert(x: string, s: seq<string>): (r: seq<string>)
    requires Sorted(s)
    ensures Sorted(r)
    ensures multiset(r) == multiset(s) + multiset{x}
    decreases |s|
  {
    if |s| == 0 then [x]
    else if LessEq(x, s[0]) then
      InsertFront(x, s);
      [x] + s
    else
      SortedTail(s);
      var tail := Insert(x, s[1..]);
      InsertBehind(x, s, tail);
      [s[0]] + tail
  }

  lemma InsertFront(x: string, s: seq<string>)
    requires Sorted(s) && |s| > 0 && LessEq(x, s[0])
    ensures Sorted([x] + s)
    ensures multiset([x] + s) == multiset(s) + multiset{x}
  {
    var r := [x] + s;
    forall i, j | 0 <= i < j < |r|
      ensures LessEq(r[i], r[j])
    {
      if i == 0 && j > 1 {
        LessEqTrans(x, s[0], r[j]);
      }
    }
  }

  lemma InsertBehind(x: string, s: seq<string>, tail: seq<string>)
    requires Sorted(s) && |s| > 0 && !LessEq(x, s[0])
    requires Sorted(tail) && multiset(tail) == multiset(s[1..]) + multiset{x}
    ensures Sorted([s[0]] + tail)
    ensures multiset([s[0]] + tail) == multiset(s) + multiset{x}
  {
    var r := [s[0]] + tail;
    assert s == [s[0]] + s[1..];
    LessEqTotal(x, s[0]);
    forall j | 0 <= j < |tail|
      ensures LessEq(s[0], tail[j])
    {
      assert tail[j] in multiset(tail);
      if tail[j] != x {
        assert tail[j] in multiset(s[1..]);
        var k :| 0 <= k < |s[1..]| && s[1..][k] == tail[j];
        assert s[k + 1] == tail[j];
      }
    }
    forall i, j | 0 <= i < j < |r|
      ensures LessEq(r[i], r[j])
    {
      if i > 0 {
        assert r[i] == tail[i - 1] && r[j] == tail[j - 1];
      } else {
        assert r[j] == tail[j - 1];
      }
    }
  }

  /** Python's `sorted` on a list of strings. */
  function SortLines(s: seq<string>): (r: seq<string>)
    ensures Sorted(r)
    ensures multiset(r) == multiset(s)
    ensures |r| == |s|
    decreases |s|
  {
    if |s| == 0 then []
    else
      var r := Insert(s[0], SortLines(s[1..]));
      assert s == [s[0]] + s[1..];
      assert |r| == |multiset(r)| == |multiset(s)| == |s|;
      r
  }

  lemma MultisetTail(a: seq<string>)
    requires |a| > 0
    ensures multiset(a[1..]) == multiset(a) - multiset{a[0]}
  {
    assert a == [a[0]] + a[1..];
  }

  lemma SortedTail(a: seq<string>)
    requires Sorted(a) && |a| > 0
    ensures Sorted(a[1..])
  {
    assert forall i :: 0 <= i < |a| - 1 ==> a[1..][i] == a[i + 1];
  }

  /** Two sorted arrangements of one multiset start with the same element. */
  lemma SortedSameHead(a: seq<string>, b: seq<string>)
    requires Sorted(a) && Sorted(b) && |a| > 0 && |b| > 0
    requires multiset(a) == multiset(b)
    ensures a[0] == b[0]
  {
    assert a[0] in multiset(b) && b[0] in multiset(a);
    var i :| 0 <= i < |b| && b[i] == a[0];
    var j :| 0 <= j < |a| && a[j] == b[0];
    if a[0] != b[0] {
      assert LessEq(b[0], b[i]) && LessEq(a[0], a[j]);
      LessEqAntisym(a[0], b[0]);
    }
  }

  /** There is only one sorted arrangement of a multiset of strings, so the
      insertion sort above orders the log exactly as `sorted` does. */
  lemma {:induction false} SortedUnique(a: seq<string>, b: seq<string>)
    requires Sorted(a) && Sorted(b)
    requires multiset(a) == multiset(b)
    ensures a == b
    decreases |a|
  {
    assert |a| == |multiset(a)| == |multiset(b)| == |b|;
    if |a| > 0 {
      SortedSameHead(a, b);
      MultisetTail(a);
      MultisetTail(b);
      SortedTail(a);
      SortedTail(b);
      SortedUnique(a[1..], b[1..]);
      assert a == [a[0]] + a[1..] && b == [b[0]] + b[1..];
    }
  }

  /** `line.split('\t')[0]`: the text before the first tab, or the whole
      line when it holds no tab. */
  function HashOf(line: string): string
    decreases |line|
  {
    if |line| == 0 || line[0] == '\t' then "" else [line[0]] + HashOf(line[1..])
  }

  /** The character-by-character scan agrees with Python's split. */
  lemma {:induction false} HashOfIsSplit(line: string)
    ensures HashOf(line) == SplitOn(line, {'\t'})[0]
    decreases |line|
  {
    if |line| > 0 && line[0] != '\t' {
      HashOfIsSplit(line[1..]);
    }
  }

  /** The hash is the leading tab-free field of the line: the whole line,
      or the text up to its first tab. */
  lemma {:induction false} HashIsField(line: string)
    ensures Free(HashOf(line), {'\t'})
    ensures StartsWith(line, HashOf(line))
    ensures HashOf(line) == line || line[|HashOf(line)|] == '\t'
    decreases |line|
  {
    if |line| > 0 && line[0] != '\t' {
      HashIsField(line[1..]);
      assert line == [line[0]] + line[1..];
    }
  }

  /** A log line `hash<TAB>path` yields its hash, whatever the path holds. */
  lemma HashOfRecord(hash: string, path: string)
    requires Free(hash, {'\t'})
    ensures HashOf(hash + "\t" + path) == hash
  {
    SplitAfterPart({'\t'}, hash, '\t', path);
    assert hash + "\t" + path == hash + ['\t'] + path;
    HashOfIsSplit(hash + "\t" + path);
  }

  /** What the loop holds in `last_hash` and `last_line` before it reads
      line `i`: the empty string before the first line. */
  function PrevHash(s: seq<string>, i: int): string
    requires 0 <= i <= |s|
  {
    if i == 0 then "" else HashOf(s[i - 1])
  }

  function PrevLine(s: seq<string>, i: int): string
    requires 0 <= i <= |s|
  {
    if i == 0 then "" else s[i - 1]
  }

  /** Line `i` triggers a pair of `rm` commands. */
  predicate Matches(s: seq<string>, i: int)
    requires 0 <= i < |s|
  {
    PrevHash(s, i) == HashOf(s[i])
  }

  /** One printed shell command, `rm <dir>/<path>`. */
  datatype Command = Rm(dir: string, path: string)

  function Render(c: Command): string {
    "rm " + c.dir + "/" + c.path
  }

  /** Within one directory, distinct commands print as distinct lines, so
      reasoning about commands is reasoning about the printed text. */
  lemma RenderInjective(c: Command, d: Command)
    requires c.dir == d.dir && Render(c) == Render(d)
    ensures c == d
  {
    var n := |"rm " + c.dir + "/"|;
    assert Render(c)[n..] == c.path && Render(d)[n..] == d.path;
  }

  /** One flag per line of `s`: whether reading it prints a pair. */
  function Hits(s: seq<string>): (h: seq<bool>)
    ensures |h| == |s|
    ensures forall i :: 0 <= i < |s| ==> h[i] == Matches(s, i)
  {
    seq(|s|, i requires 0 <= i < |s| => Matches(s, i))
  }

  /** The commands printed while reading line `i`. */
  function StepCommands(dir: string, s: seq<string>, hits: seq<bool>, i: int): seq<Command>
    requires |hits| == |s| && 0 <= i < |s|
  {
    if hits[i] then [Rm(dir, PrevLine(s, i)), Rm(dir, s[i])] else []
  }

  /** The commands printed for the first `n` lines, for any choice of which
      lines print a pair. */
  function Run(dir: string, s: seq<string>, hits: seq<bool>, n: int): seq<Command>
    requires |hits| == |s| && 0 <= n <= |s|
    decreases n
  {
    if n == 0 then [] else Run(dir, s, hits, n - 1) + StepCommands(dir, s, hits, n - 1)
  }

  /** The commands `dedup` prints for the first `n` lines of the sorted log. */
  function Emitted(dir: string, s: seq<string>, n: int): seq<Command>
    requires 0 <= n <= |s|
  {
    Run(dir, s, Hits(s), n)
  }

  /** The lines the output deletes, read off the sorted log: every line
      whose hash equals a neighbour's, plus, when the first line's hash is
      empty, the empty `last_line` the loop starts from. */
  predicate Removed(s: seq<string>, x: string) {
    || (exists i :: 0 <= i < |s| && s[i] == x && (Matches(s, i) || (i + 1 < |s| && Matches(s, i + 1))))
    || (|s| > 0 && Matches(s, 0) && x == "")
  }

  predicate RemovedBefore(s: seq<string>, hits: seq<bool>, n: int, x: string)
    requires |hits| == |s| && 0 <= n <= |s|
  {
    exists i :: 0 <= i < n && hits[i] && (x == s[i] || x == PrevLine(s, i))
  }

  /** A line is named by an `rm` among the first `n` steps exactly when one
      of those steps printed a pair that holds it. */
  lemma {:induction false} RunMembers(dir: string, s: seq<string>, hits: seq<bool>, n: int, x: string)
    requires |hits| == |s| && 0 <= n <= |s|
    ensures Rm(dir, x) in Run(dir, s, hits, n) <==> RemovedBefore(s, hits, n, x)
    decreases n
  {
    if n > 0 {
      RunMembers(dir, s, hits, n - 1, x);
      var e, step := Run(dir, s, hits, n - 1), StepCommands(dir, s, hits, n - 1);
      assert Run(dir, s, hits, n) == e + step;
      assert Rm(dir, x) in e + step <==> Rm(dir, x) in e || Rm(dir, x) in step;
      if RemovedBefore(s, hits, n, x) {
        var k :| 0 <= k < n && hits[k] && (x == s[k] || x == PrevLine(s, k));
        if k < n - 1 {
          assert RemovedBefore(s, hits, n - 1, x);
        }
      }
    }
  }

  lemma RemovedBeforeAll(s: seq<string>, x: string)
    ensures RemovedBefore(s, Hits(s), |s|, x) <==> Removed(s, x)
  {
    var hits := Hits(s);
    if RemovedBefore(s, hits, |s|, x) {
      var i :| 0 <= i < |s| && hits[i] && (x == s[i] || x == PrevLine(s, i));
      assert Matches(s, i);
      if x != s[i] && i > 0 {
        assert s[i - 1] == x && Matches(s, (i - 1) + 1);
      }
    }
    if Removed(s, x) {
      if exists i :: 0 <= i < |s| && s[i] == x && (Matches(s, i) || (i + 1 < |s| && Matches(s, i + 1))) {
        var i :| 0 <= i < |s| && s[i] == x && (Matches(s, i) || (i + 1 < |s| && Matches(s, i + 1)));
        if !Matches(s, i) {
          assert hits[i + 1] && PrevLine(s, i + 1) == x;
        } else {
          assert hits[i];
        }
      } else {
        assert hits[0] && PrevLine(s, 0) == x;
      }
    }
  }

  /** The whole output deletes exactly the lines `Removed` names. */
  lemma RemovedExactly(dir: string, s: seq<string>, x: string)
    ensures Rm(dir, x) in Emitted(dir, s, |s|) <==> Removed(s, x)
  {
    RunMembers(dir, s, Hits(s), |s|, x);
    RemovedBeforeAll(s, x);
  }

  /** The loop of `dedup` over lines already in order: one step per line,
      remembering the previous line and its hash. */
  method Scan(dir: string, lines: seq<string>) returns (commands: seq<Command>, count: nat)
    ensures count == |lines|
    ensures commands == Emitted(dir, lines, |lines|)
  {
    ghost var hits := Hits(lines);
    var lastLine, lastHash := "", "";
    commands, count := [], 0;
    for i := 0 to |lines|
      invariant count == i
      invariant lastHash == PrevHash(lines, i) && lastLine == PrevLine(lines, i)
      invariant commands == Run(dir, lines, hits, i)
    {
      count := count + 1;
      var hash := HashOf(lines[i]);
      assert hits[i] == (lastHash == hash);
      if lastHash == hash {
        commands := commands + [Rm(dir, lastLine), Rm(dir, lines[i])];
      }
      lastHash := hash;
      lastLine := lines[i];
    }
  }

  /** `dedup(dup_log)` on the log's lines and directory: the printed `rm`
      commands and the line count of the final message. */
  method Dedup(dir: string, log: seq<string>) returns (commands: seq<Command>, count: nat)
    ensures count == |log|
    ensures commands == Emitted(dir, SortLines(log), |log|)
    ensures forall x :: Rm(dir, x) in commands <==> Removed(SortLines(log), x)
  {
    var lines := SortLines(log);
    commands, count := Scan(dir, lines);
    forall x
      ensures Rm(dir, x) in commands <==> Removed(lines, x)
    {
      RemovedExactly(dir, lines, x);
    }
  }

  /** Both lines of an adjacent equal-hash pair are deleted. */
  lemma PairRemoved(dir: string, s: seq<string>, i: int)
    requires 0 <= i && i + 1 < |s| && HashOf(s[i]) == HashOf(s[i + 1])
    ensures Rm(dir, s[i]) in Emitted(dir, s, |s|) && Rm(dir, s[i + 1]) in Emitted(dir, s, |s|)
  {
    assert Matches(s, i + 1);
    RemovedExactly(dir, s, s[i]);
    RemovedExactly(dir, s, s[i + 1]);
  }

  /** The output so far is a prefix of the output at any later point. */
  lemma {:induction false} RunPrefix(dir: string, s: seq<string>, hits: seq<bool>, n: int, m: int)
    requires |hits| == |s| && 0 <= n <= m <= |s|
    ensures Run(dir, s, hits, n) <= Run(dir, s, hits, m)
    decreases m - n
  {
    if n < m {
      RunPrefix(dir, s, hits, n, m - 1);
      var e, step := Run(dir, s, hits, m - 1), StepCommands(dir, s, hits, m - 1);
      assert Run(dir, s, hits, m) == e + step;
      assert (e + step)[..|e|] == e;
    }
  }

  /** Commands once printed stay printed. */
  lemma RunGrows(dir: string, s: seq<string>, hits: seq<bool>, n: int, m: int)
    requires |hits| == |s| && 0 <= n <= m <= |s|
    ensures multiset(Run(dir, s, hits, n)) <= multiset(Run(dir, s, hits, m))
  {
    RunPrefix(dir, s, hits, n, m);
    PrefixGrows(Run(dir, s, hits, n), Run(dir, s, hits, m));
  }

  lemma PrefixGrows(a: seq<Command>, b: seq<Command>)
    requires a <= b
    ensures multiset(a) <= multiset(b)
  {
    var t := b[|a|..];
    assert b == a + t;
    assert multiset(b) == multiset(a) + multiset(t);
  }

  /** Two pair-printing steps in a row name their shared line twice. */
  lemma MiddleTwice(dir: string, s: seq<string>, hits: seq<bool>, i: int)
    requires |hits| == |s| && 0 <= i && i + 2 < |s|
    requires hits[i + 1] && hits[i + 2]
    ensures multiset(Run(dir, s, hits, i + 3))[Rm(dir, s[i + 1])] >= 2
  {
    var x := Rm(dir, s[i + 1]);
    var e1, step1, step2 := Run(dir, s, hits, i + 1), StepCommands(dir, s, hits, i + 1), StepCommands(dir, s, hits, i + 2);
    assert step1 == [Rm(dir, s[i]), x] && step2 == [x, Rm(dir, s[i + 2])];
    assert Run(dir, s, hits, i + 3) == e1 + step1 + step2;
    assert multiset(e1 + step1 + step2) == multiset(e1) + multiset(step1) + multiset(step2);
  }

  /** In a run of three equal hashes the middle line is deleted twice. */
  lemma MiddleOfThree(dir: string, s: seq<string>, i: int)
    requires 0 <= i && i + 2 < |s|
    requires HashOf(s[i]) == HashOf(s[i + 1]) == HashOf(s[i + 2])
    ensures multiset(Emitted(dir, s, |s|))[Rm(dir, s[i + 1])] >= 2
  {
    var hits := Hits(s);
    EqualHashesHit(s, i + 1);
    EqualHashesHit(s, i + 2);
    MiddleTwice(dir, s, hits, i);
    RunGrows(dir, s, hits, i + 3, |s|);
    var x, a, b := Rm(dir, s[i + 1]), multiset(Run(dir, s, hits, i + 3)), multiset(Emitted(dir, s, |s|));
    assert a <= b;
    assert a[x] <= b[x];
  }

  lemma EqualHashesHit(s: seq<string>, i: int)
    requires 0 < i < |s| && HashOf(s[i - 1]) == HashOf(s[i])
    ensures Hits(s)[i]
  {
    assert Matches(s, i);
  }

  lemma LessEqEmpty(a: string)
    requires LessEq(a, "")
    ensures a == ""
  {
  }

  /** In the sorted log, a line whose hash differs from both neighbours'
      (and is not an empty first hash) is not deleted. */
  lemma LoneLineKept(dir: string, s: seq<string>, i: int)
    requires Sorted(s) && 0 <= i < |s|
    requires !Matches(s, i)
    requires i + 1 < |s| ==> HashOf(s[i + 1]) != HashOf(s[i])
    ensures Rm(dir, s[i]) !in Emitted(dir, s, |s|)
  {
    RemovedExactly(dir, s, s[i]);
    var x := s[i];
    forall j | 0 <= j < |s| && s[j] == x
      ensures j == i
    {
      if j > i {
        LessEqTrans(s[i + 1], s[j], s[i]);
        LessEqAntisym(s[i], s[i + 1]);
      } else if j < i {
        LessEqTrans(s[i - 1], s[j], s[i]);
        LessEqAntisym(s[i - 1], s[i]);
      }
    }
    if |s| > 0 && Matches(s, 0) && x == "" && i > 0 {
      LessEqEmpty(s[i - 1]);
    }
  }
}

=== FILE: mover.dfy ===
/** `move_file` of media_process.py: a collision check over the whole plan,
    and only when it passes, the moves in plan order. The filesystem is a map
    from path to file contents and modification time; directories are not
    modelled, so `os.makedirs` has no counterpart. */
module Mover {
  import opened Plan

  newtype byte = x: int | 0 <= x < 256

  datatype FileData = FileData(content: seq<byte>, mtime: int)

  type Fs = map<string, FileData>

  function Size(d: FileData): nat {
    |d.content|
  }

  /** `filecmp.cmp(a, b)` with its default `shallow=True`: files of different
      size differ; files of equal size and equal mtime are taken as equal
      without reading them; otherwise their bytes decide. */
  predicate SameFile(a: FileData, b: FileData): (same: bool)
    ensures a.content == b.content ==> same
    ensures Size(a) == Size(b) && a.mtime == b.mtime ==> same
    ensures same ==> Size(a) == Size(b)
    ensures same && a.mtime != b.mtime ==> a.content == b.content
  {
    Size(a) == Size(b) && (a.mtime == b.mtime || a.content == b.content)
  }

  /** Lines 65-66: the destination exists, differs from the source and is
      larger than it. */
  predicate Clashes(fs: Fs, m: Move)
    requires m.src in fs && m.dst in fs
  {
    !SameFile(fs[m.src], fs[m.dst]) && Size(fs[m.dst]) > Size(fs[m.src])
  }

  /** A pair the first loop lets through: nothing at the destination, or a
      source that compares equal or is at least as large. */
  predicate Passes(fs: Fs, m: Move) {
    m.dst !in fs || (m.src in fs && !Clashes(fs, m))
  }

  /** The first loop's verdict. `filecmp.cmp` on a missing source raises,
      so a pair whose destination exists but whose source does not ends the
      run too. */
  datatype Check = Clear | Clash(move: Move) | NoSource(path: string)

  function Precheck(plan: seq<Move>, fs: Fs): (c: Check)
    ensures c == Clear <==> forall i :: 0 <= i < |plan| ==> Passes(fs, plan[i])
    ensures c.Clash? ==> c.move in plan && c.move.src in fs && c.move.dst in fs && Clashes(fs, c.move)
    ensures c.NoSource? ==> exists i :: 0 <= i < |plan| && plan[i].src == c.path && c.path !in fs && plan[i].dst in fs
    decreases |plan|
  {
    if |plan| == 0 then Clear
    else
      var m := plan[0];
      if m.dst in fs && m.src !in fs then NoSource(m.src)
      else if m.dst in fs && Clashes(fs, m) then Clash(m)
      else
        var c := Precheck(plan[1..], fs);
        assert forall i :: 1 <= i < |plan| ==> plan[i] == plan[1..][i - 1];
        if c.NoSource? then
          var i :| 0 <= i < |plan[1..]| && plan[1..][i].src == c.path && c.path !in fs && plan[1..][i].dst in fs;
          assert plan[i + 1] == plan[1..][i];
          c
        else c
  }

  /** `shutil.move(src, dst)` on a plain file: the destination, existing or
      not, ends up holding the source's data and the source is gone. Moving a
      file onto itself changes nothing. */
  function MoveOne(fs: Fs, m: Move): (r: Fs)
    requires m.src in fs
    ensures m.dst in r && r[m.dst] == fs[m.src]
    ensures m.src != m.dst ==> m.src !in r
    ensures forall p :: p != m.src && p != m.dst ==> (p in r <==> p in fs) && (p in r ==> r[p] == fs[p])
  {
    (fs - {m.src})[m.dst := fs[m.src]]
  }

  datatype Applied = Moved(fs: Fs) | Failed(path: string, fs: Fs)

  /** The second loop: the moves in plan order; a source that has gone
      missing raises, leaving the earlier moves done. */
  function ApplyMoves(plan: seq<Move>, fs: Fs): (r: Applied)
    ensures r.Failed? ==> r.path !in r.fs && exists i :: 0 <= i < |plan| && plan[i].src == r.path
    ensures r.Moved? && |plan| > 0 ==> plan[|plan| - 1].dst in r.fs
    decreases |plan|
  {
    if |plan| == 0 then Moved(fs)
    else if plan[0].src !in fs then Failed(plan[0].src, fs)
    else
      var r := ApplyMoves(plan[1..], MoveOne(fs, plan[0]));
      if r.Failed? then
        var i :| 0 <= i < |plan[1..]| && plan[1..][i].src == r.path;
        assert plan[i + 1] == plan[1..][i];
        r
      else
        assert |plan| > 1 ==> plan[1..][|plan[1..]| - 1] == plan[|plan| - 1];
        r
  }

  datatype MoveOutcome = Done(fs: Fs) | Refused(move: Move) | Crashed(path: string, fs: Fs)

  /** `move_file(lst, dump_only)`. */
  function MoveFiles(plan: seq<Move>, fs: Fs, dumpOnly: bool): (r: MoveOutcome)
    ensures r.Refused? ==> r.move in plan && r.move.src in fs && r.move.dst in fs && Clashes(fs, r.move)
    ensures (exists i :: 0 <= i < |plan| && !Passes(fs, plan[i])) ==> !r.Done? && (r.Crashed? ==> r.fs == fs)
    ensures r.Done? ==> forall i :: 0 <= i < |plan| ==> Passes(fs, plan[i])
    ensures dumpOnly ==> (r.Done? || r.Crashed?) ==> r.fs == fs
    ensures dumpOnly && (forall i :: 0 <= i < |plan| ==> Passes(fs, plan[i])) ==> r == Done(fs)
    ensures !dumpOnly && (forall i :: 0 <= i < |plan| ==> Passes(fs, plan[i])) ==> r.Done? || r.Crashed?
  {
    match Precheck(plan, fs)
    case Clash(m) => Refused(m)
    case NoSource(p) => Crashed(p, fs)
    case Clear =>
      if dumpOnly then Done(fs)
      else
        match ApplyMoves(plan, fs)
        case Moved(fs') => Done(fs')
        case Failed(p, fs') => Crashed(p, fs')
  }

  /** Plans whose moves do not interfere: every source exists, no two pairs
      share a source or a destination, and no pair's destination is another
      pair's source. A pair may move a file onto itself. */
  predicate Independent(plan: seq<Move>, fs: Fs) {
    && (forall i :: 0 <= i < |plan| ==> plan[i].src in fs)
    && (forall i, j :: 0 <= i < |plan| && 0 <= j < |plan| && i != j ==>
          plan[i].src != plan[j].src && plan[i].dst != plan[j].dst && plan[i].dst != plan[j].src)
  }

  predicate Mentioned(plan: seq<Move>, p: string) {
    exists i :: 0 <= i < |plan| && (plan[i].src == p || plan[i].dst == p)
  }

  predicate IsDestination(plan: seq<Move>, p: string) {
    exists i :: 0 <= i < |plan| && plan[i].dst == p
  }

  /** The effect of the second loop on an independent plan: each destination
      holds its source's data, each source that is nobody's destination is
      gone, and every other path is untouched. */
  lemma {:induction false} ApplyIndependent(plan: seq<Move>, fs: Fs)
    requires Independent(plan, fs)
    ensures ApplyMoves(plan, fs).Moved?
    ensures var out := ApplyMoves(plan, fs).fs;
            && (forall i :: 0 <= i < |plan| ==> plan[i].dst in out && out[plan[i].dst] == fs[plan[i].src])
            && (forall i :: 0 <= i < |plan| && !IsDestination(plan, plan[i].src) ==> plan[i].src !in out)
            && (forall p :: !Mentioned(plan, p) ==> (p in out <==> p in fs) && (p in out ==> out[p] == fs[p]))
    decreases |plan|
  {
    if |plan| > 0 {
      var m := plan[0];
      var rest := plan[1..];
      var fs1 := MoveOne(fs, m);
      assert forall i :: 1 <= i < |plan| ==> plan[i] == rest[i - 1];
      IndependentTail(plan, fs);
      ApplyIndependent(rest, fs1);
      var out := ApplyMoves(rest, fs1).fs;
      assert ApplyMoves(plan, fs) == ApplyMoves(rest, fs1);
      assert !Mentioned(rest, m.dst) by {
        forall i | 0 <= i < |rest|
          ensures rest[i].src != m.dst && rest[i].dst != m.dst
        {
          assert rest[i] == plan[i + 1];
        }
      }
      forall i | 0 <= i < |plan|
        ensures plan[i].dst in out && out[plan[i].dst] == fs[plan[i].src]
      {
        if i > 0 {
          assert rest[i - 1] == plan[i];
        }
      }
      forall i | 0 <= i < |plan| && !IsDestination(plan, plan[i].src)
        ensures plan[i].src !in out
      {
        if i == 0 {
          assert m.src != m.dst;
          assert !Mentioned(rest, m.src) by {
            forall j | 0 <= j < |rest|
              ensures rest[j].src != m.src && rest[j].dst != m.src
            {
              assert rest[j] == plan[j + 1];
            }
          }
        } else {
          assert rest[i - 1] == plan[i];
          assert !IsDestination(rest, rest[i - 1].src) by {
            forall j | 0 <= j < |rest|
              ensures rest[j].dst != plan[i].src
            {
              assert rest[j] == plan[j + 1];
            }
          }
        }
      }
      forall p | !Mentioned(plan, p)
        ensures (p in out <==> p in fs) && (p in out ==> out[p] == fs[p])
      {
        assert p != m.src && p != m.dst;
        assert !Mentioned(rest, p) by {
          forall j | 0 <= j < |rest|
            ensures rest[j].src != p && rest[j].dst != p
          {
            assert rest[j] == plan[j + 1];
          }
        }
      }
    }
  }

  /** After the first move, the rest of an independent plan is independent
      on the files it left behind. */
  lemma IndependentTail(plan: seq<Move>, fs: Fs)
    requires Independent(plan, fs) && |plan| > 0
    ensures Independent(plan[1..], MoveOne(fs, plan[0]))
  {
    var rest, fs1 := plan[1..], MoveOne(fs, plan[0]);
    forall i | 0 <= i < |rest|
      ensures rest[i].src in fs1
    {
      assert rest[i] == plan[i + 1];
    }
    forall i, j | 0 <= i < |rest| && 0 <= j < |rest| && i != j
      ensures rest[i].src != rest[j].src && rest[i].dst != rest[j].dst && rest[i].dst != rest[j].src
    {
      assert rest[i] == plan[i + 1] && rest[j] == plan[j + 1];
    }
  }

  /** With the check passed and moves enabled, an independent plan is carried
      out in full. */
  lemma MoveFilesCarriesOutPlan(plan: seq<Move>, fs: Fs)
    requires Independent(plan, fs)
    requires forall i :: 0 <= i < |plan| ==> Passes(fs, plan[i])
    ensures MoveFiles(plan, fs, false).Done?
    ensures var out := MoveFiles(plan, fs, false).fs;
            && (forall i :: 0 <= i < |plan| ==> plan[i].dst in out && out[plan[i].dst] == fs[plan[i].src])
            && (forall p :: !Mentioned(plan, p) ==> (p in out <==> p in fs) && (p in out ==> out[p] == fs[p]))
  {
    ApplyIndependent(plan, fs);
  }
}

=== FILE: plan.dfy ===
/** `process_file` of media_process.py: the rename plan, at most one
    (source, destination) pair per file, gathered over a directory tree in
    `os.listdir` order, and `main`'s concatenation over the root paths. */
module Plan {
  import opened Text
  import opened Clock
  import opened Timestamp

  datatype Move = Move(src: string, dst: string)

  /** What `process_file` does with one regular file: nothing, one pair, or
      an exception it does not catch, which ends the whole run. */
  datatype Decision = Skip | Place(move: Move) | Abort(path: string, why: Reason)

  const SkippedDir: string := "skipped"

  /** `os.path.relpath(f, root)` for a path reached from `root` through the
      directory entries `rel`; the root itself is ".". */
  function RelPath(rel: seq<string>, sep: char): string {
    if rel == [] then "." else JoinWith(rel, sep)
  }

  /** `os.path.join(root, middle, name)`. */
  function Join3(root: string, middle: string, name: string, sep: char): (r: string)
    ensures StartsWith(r, root + [sep])
    ensures EndsWith(r, [sep] + name)
  {
    var r := PathJoin(PathJoin(root, middle, sep), name, sep);
    assert r[..|root| + 1] == root + [sep];
    assert r[|r| - |name| - 1..] == [sep] + name;
    r
  }

  /** Lines 87-103: where a file goes once its lookup is known. A
      ValueError sends it to `root/skipped`. A name that already carries
      `prefix_` is only moved, and not at all when it is already in place;
      otherwise the prefix is prepended when the lookup asks for it. */
  function Route(root: string, f: string, lookup: Lookup, sep: char): (d: Decision)
    ensures d.Place? ==> d.move.src == f && StartsWith(d.move.dst, root + [sep])
    ensures d.Place? ==> EndsWith(d.move.dst, BaseName(f, sep))
    ensures d.Abort? <==> lookup.Fatal?
    ensures d.Abort? ==> d.path == f && d.why == lookup.reason
    ensures lookup.Invalid? ==> d == Place(Move(f, Join3(root, SkippedDir, BaseName(f, sep), sep)))
    ensures lookup.Found? ==> FoundRouted(root, f, lookup.stamp, d, sep)
  {
    var base := BaseName(f, sep);
    match lookup
    case Fatal(why) => Abort(f, why)
    case Invalid(_) => Place(Move(f, Join3(root, SkippedDir, base, sep)))
    case Found(st) =>
      var prefix := st.prefix + "_";
      if StartsWith(base, prefix) then
        var nn := Join3(root, st.subpath, base, sep);
        if f == nn then Skip else Place(Move(f, nn))
      else if st.changeName then
        var nn := Join3(root, st.subpath, prefix + base, sep);
        assert EndsWith(nn, base) by {
          assert nn[|nn| - |base|..] == (prefix + base)[|prefix|..];
        }
        Place(Move(f, nn))
      else Place(Move(f, Join3(root, st.subpath, base, sep)))
  }

  /** What a found timestamp makes of a file: nothing exactly when its name
      already carries `prefix_` and it already sits in the stamp's
      sub-directory; otherwise a move into that sub-directory under its own
      name or under `prefix_` and its own name. */
  predicate FoundRouted(root: string, f: string, st: Stamp, d: Decision, sep: char) {
    var base := BaseName(f, sep);
    && !d.Abort?
    && (d.Skip? <==> StartsWith(base, st.prefix + "_") && f == Join3(root, st.subpath, base, sep))
    && (d.Place? ==> d.move.src == f
                     && (d.move.dst == Join3(root, st.subpath, base, sep)
                         || d.move.dst == Join3(root, st.subpath, st.prefix + "_" + base, sep)))
  }

  /** Lines 81-103 for a path that is a regular file: an empty file, and a
      file whose path relative to the root starts with `skipped`, are left
      alone before any lookup is made. */
  function DecideFile(root: string, f: string, rel: seq<string>, size: nat, src: Sources, env: Env): (d: Decision)
    ensures size == 0 || StartsWith(RelPath(rel, env.sep), SkippedDir) ==> d == Skip
    ensures d.Place? ==> d.move.src == f && StartsWith(d.move.dst, root + [env.sep])
    ensures d.Place? ==> EndsWith(d.move.dst, BaseName(f, env.sep))
    ensures d.Abort? <==> size > 0 && !StartsWith(RelPath(rel, env.sep), SkippedDir)
                          && GetTimestamp(f, src, env).Fatal?
    ensures d.Abort? ==> d.path == f && d.why == DateWithoutMonth
  {
    if size == 0 then Skip
    else if StartsWith(RelPath(rel, env.sep), SkippedDir) then Skip
    else Route(root, f, GetTimestamp(f, src, env), env.sep)
  }

  /** A non-empty file outside `skipped` is routed by its lookup: a
      ValueError sends it to `root/skipped/<basename>`, a found timestamp
      into the stamp's sub-directory, or nowhere when it is already there. */
  lemma DecideFileRouted(root: string, f: string, rel: seq<string>, size: nat, src: Sources, env: Env)
    requires size > 0 && !StartsWith(RelPath(rel, env.sep), SkippedDir)
    ensures var d, lookup := DecideFile(root, f, rel, size, src, env), GetTimestamp(f, src, env);
            && (lookup.Invalid? ==> d == Place(Move(f, Join3(root, SkippedDir, BaseName(f, env.sep), env.sep))))
            && (lookup.Found? ==> FoundRouted(root, f, lookup.stamp, d, env.sep))
  {
    assert DecideFile(root, f, rel, size, src, env) == Route(root, f, GetTimestamp(f, src, env), env.sep);
  }

  /** Where a file whose timestamp was found ends up: nowhere when its name
      already carries `prefix_` and it already sits in the stamp's
      sub-directory; otherwise in that sub-directory, under the name
      `prefix_<base>` exactly when the lookup asks for a new name and the
      name lacks the prefix, and under its own name in every other case. */
  lemma FoundDestination(root: string, f: string, st: Stamp, sep: char)
    requires Free(st.prefix, {sep}) && sep != '_'
    ensures var base, pre, d := BaseName(f, sep), st.prefix + "_", Route(root, f, Found(st), sep);
            && !d.Abort?
            && (d.Skip? <==> StartsWith(base, pre) && f == Join3(root, st.subpath, base, sep))
            && (d.Place? ==>
                  && d.move.src == f
                  && d.move.dst == Join3(root, st.subpath, BaseName(d.move.dst, sep), sep)
                  && (BaseName(d.move.dst, sep) == pre + base <==> st.changeName && !StartsWith(base, pre))
                  && (BaseName(d.move.dst, sep) == base <==> !(st.changeName && !StartsWith(base, pre))))
  {
    var base := BaseName(f, sep);
    var pre := st.prefix + "_";
    var dir := PathJoin(root, st.subpath, sep);
    BaseNameOfJoin(dir, base, sep);
    FreeConcat(pre, base, {sep});
    BaseNameOfJoin(dir, pre + base, sep);
    assert |pre + base| != |base|;
  }

  /** After the move, a renamed file's name begins with `prefix_`, so the
      planner will recognise it as already named. */
  lemma PlacedNameCarriesPrefix(root: string, f: string, st: Stamp, sep: char)
    requires st.changeName && Free(st.prefix, {sep}) && sep != '_'
    requires Route(root, f, Found(st), sep).Place?
    ensures StartsWith(BaseName(Route(root, f, Found(st), sep).move.dst, sep), st.prefix + "_")
  {
    var base := BaseName(f, sep);
    var prefix := st.prefix + "_";
    var dir := PathJoin(root, st.subpath, sep);
    if StartsWith(base, prefix) {
      BaseNameOfJoin(dir, base, sep);
    } else {
      FreeConcat(prefix, base, {sep});
      BaseNameOfJoin(dir, prefix + base, sep);
      assert (prefix + base)[..|prefix|] == prefix;
    }
  }

  /** Prefixing an image's name keeps it an image. */
  lemma ImageKeepsKind(f: string, g: string, p: string, sep: char)
    requires KindOf(f, sep) == Image
    requires BaseName(g, sep) == BaseName(f, sep) || BaseName(g, sep) == p + BaseName(f, sep)
    ensures KindOf(g, sep) == Image
  {
    if BaseName(g, sep) != BaseName(f, sep) {
      assert Extension(BaseName(f, sep)) != "";
      ExtensionOfPrefixed(p, BaseName(f, sep));
    }
  }

  /** Idempotence for images: planning again at the destination of a move,
      with the same EXIF block, plans nothing. The EXIF block travels with
      the file, and the prefixed name keeps the image extension. */
  lemma ImageRerunIsNoOp(root: string, f: string, rel: seq<string>, rel2: seq<string>, size: nat, src: Sources, env: Env)
    requires KindOf(f, env.sep) == Image
    requires GetTimestamp(f, src, env).Found?
    requires Free(GetTimestamp(f, src, env).stamp.prefix, {env.sep}) && env.sep != '_'
    requires DecideFile(root, f, rel, size, src, env).Place?
    requires !StartsWith(RelPath(rel2, env.sep), SkippedDir)
    ensures DecideFile(root, DecideFile(root, f, rel, size, src, env).move.dst, rel2, size, src, env) == Skip
  {
    var sep := env.sep;
    var lookup := GetTimestamp(f, src, env);
    var st := lookup.stamp;
    assert DecideFile(root, f, rel, size, src, env) == Route(root, f, lookup, sep);
    var f2 := Route(root, f, lookup, sep).move.dst;
    PlacedNameCarriesPrefix(root, f, st, sep);
    FoundDestination(root, f, st, sep);
    ImageKeepsKind(f, f2, st.prefix + "_", sep);
    ImageLookupIgnoresOtherSources(f, f2, src, src, env, env);
    assert Route(root, f2, lookup, sep) == Skip;
  }

  /** A rejected file is never planned again: its new home lies under
      `root/skipped`. */
  lemma RejectedStaysPut(root: string, base: string, size: nat, src: Sources, env: Env)
    ensures DecideFile(root, Join3(root, SkippedDir, base, env.sep), [SkippedDir, base], size, src, env) == Skip
  {
    JoinTwo(SkippedDir, base, env.sep);
    assert RelPath([SkippedDir, base], env.sep)[..|SkippedDir|] == SkippedDir;
  }

  /** A video kept under its own name is planned again as a move onto
      itself: the already-in-place test guards only the prefixed branch. */
  lemma KeptNameRerunMovesOntoItself(root: string, f: string, st: Stamp, sep: char)
    requires !st.changeName
    requires !StartsWith(BaseName(f, sep), st.prefix + "_")
    requires f == Join3(root, st.subpath, BaseName(f, sep), sep)
    ensures Route(root, f, Found(st), sep) == Place(Move(f, f))
  {
  }

  /** A directory entry: a regular file with its size and what the outside
      world reports about it, or a directory with its entries in
      `os.listdir` order. */
  datatype Node = File(name: string, size: nat, src: Sources) | Dir(name: string, children: seq<Node>)

  datatype PlanOutcome = Planned(moves: seq<Move>) | Aborted(path: string, why: Reason)

  /** `process_file(f, root)`: a file gives its decision; a directory gives
      its entries' plans concatenated in listing order. The first uncaught
      exception ends everything. */
  function ProcessNode(root: string, f: string, rel: seq<string>, n: Node, env: Env): (o: PlanOutcome)
    ensures o.Aborted? ==> o.why == DateWithoutMonth
    ensures o.Planned? ==> |o.moves| <= FileCount(n)
    decreases n, 1, 0
  {
    match n
    case File(_, size, src) =>
      (match DecideFile(root, f, rel, size, src, env)
       case Skip => Planned([])
       case Place(m) => Planned([m])
       case Abort(p, why) => Aborted(p, why))
    case Dir(_, _) => ProcessChildren(root, f, rel, n, 0, env)
  }

  /** Lines 105-108: the entries of directory `n` from index `i` on. */
  function ProcessChildren(root: string, f: string, rel: seq<string>, n: Node, i: nat, env: Env): (o: PlanOutcome)
    requires n.Dir? && i <= |n.children|
    ensures o.Aborted? ==> o.why == DateWithoutMonth
    ensures o.Planned? ==> |o.moves| <= ChildrenFileCount(n, i)
    decreases n, 0, |n.children| - i
  {
    if i == |n.children| then Planned([])
    else
      var c := n.children[i];
      match ProcessNode(root, PathJoin(f, c.name, env.sep), rel + [c.name], c, env)
      case Aborted(p, why) => Aborted(p, why)
      case Planned(first) =>
        match ProcessChildren(root, f, rel, n, i + 1, env)
        case Aborted(p, why) => Aborted(p, why)
        case Planned(rest) => Planned(first + rest)
  }

  /** `process_file(path)` with no root: the path is its own root. */
  function PlanPath(path: string, n: Node, env: Env): PlanOutcome {
    ProcessNode(path, path, [], n, env)
  }

  function FileCount(n: Node): nat
    decreases n, 1, 0
  {
    match n
    case File(_, _, _) => 1
    case Dir(_, _) => ChildrenFileCount(n, 0)
  }

  function ChildrenFileCount(n: Node, i: nat): nat
    requires n.Dir? && i <= |n.children|
    decreases n, 0, |n.children| - i
  {
    if i == |n.children| then 0 else FileCount(n.children[i]) + ChildrenFileCount(n, i + 1)
  }

  /** Every destination lies under the root and every source under the
      walked path. */
  predicate Placed(root: string, f: string, ms: seq<Move>, sep: char) {
    forall k :: 0 <= k < |ms| ==> StartsWith(ms[k].dst, root + [sep]) && StartsWith(ms[k].src, f)
  }

  lemma StartsWithLonger(s: string, p: string, q: string)
    requires StartsWith(s, p + q)
    ensures StartsWith(s, p)
  {
    assert s[..|p|] == (p + q)[..|p|];
  }

  /** A path inside a directory entry is inside the directory. */
  lemma InsideEntry(p: string, f: string, name: string, sep: char)
    requires StartsWith(p, PathJoin(f, name, sep))
    ensures StartsWith(p, f)
  {
    assert PathJoin(f, name, sep) == f + ([sep] + name);
    StartsWithLonger(p, f, [sep] + name);
  }

  /** A tree's plan has at most one pair per file, keeps every destination
      under the root and every source under the walked path; the only
      exception that ends a walk is the month-less EXIF date. */
  lemma {:induction false} NodePlanShape(root: string, f: string, rel: seq<string>, n: Node, env: Env)
    ensures var o := ProcessNode(root, f, rel, n, env);
            && (o.Planned? ==> |o.moves| <= FileCount(n) && Placed(root, f, o.moves, env.sep))
            && (o.Aborted? ==> o.why == DateWithoutMonth)
    decreases n, 1, 0
  {
    match n
    case File(_, size, src) =>
      var d := DecideFile(root, f, rel, size, src, env);
      if d.Place? {
        assert d.move.src[..|f|] == f;
      }
    case Dir(_, _) => ChildrenPlanShape(root, f, rel, n, 0, env);
  }

  lemma {:induction false} ChildrenPlanShape(root: string, f: string, rel: seq<string>, n: Node, i: nat, env: Env)
    requires n.Dir? && i <= |n.children|
    ensures var o := ProcessChildren(root, f, rel, n, i, env);
            && (o.Planned? ==> |o.moves| <= ChildrenFileCount(n, i) && Placed(root, f, o.moves, env.sep))
            && (o.Aborted? ==> o.why == DateWithoutMonth)
    decreases n, 0, |n.children| - i
  {
    if i < |n.children| {
      var c := n.children[i];
      var fc := PathJoin(f, c.name, env.sep);
      NodePlanShape(root, fc, rel + [c.name], c, env);
      ChildrenPlanShape(root, f, rel, n, i + 1, env);
      var o1 := ProcessNode(root, fc, rel + [c.name], c, env);
      var o2 := ProcessChildren(root, f, rel, n, i + 1, env);
      if o1.Planned? && o2.Planned? {
        PlacedConcat(root, f, fc, [env.sep] + c.name, o1.moves, o2.moves, env.sep);
      }
    }
  }

  /** The file that ends a walk lies inside the walked path. */
  lemma {:induction false} NodeAbortInside(root: string, f: string, rel: seq<string>, n: Node, env: Env)
    ensures var o := ProcessNode(root, f, rel, n, env);
            o.Aborted? ==> StartsWith(o.path, f)
    decreases n, 1, 0
  {
    match n
    case File(_, size, src) =>
      var o := ProcessNode(root, f, rel, n, env);
      if o.Aborted? {
        assert o.path[..|f|] == f;
      }
    case Dir(_, _) => ChildrenAbortInside(root, f, rel, n, 0, env);
  }

  lemma {:induction false} ChildrenAbortInside(root: string, f: string, rel: seq<string>, n: Node, i: nat, env: Env)
    requires n.Dir? && i <= |n.children|
    ensures var o := ProcessChildren(root, f, rel, n, i, env);
            o.Aborted? ==> StartsWith(o.path, f)
    decreases n, 0, |n.children| - i
  {
    if i < |n.children| {
      var c := n.children[i];
      var fc := PathJoin(f, c.name, env.sep);
      var o1 := ProcessNode(root, fc, rel + [c.name], c, env);
      NodeAbortInside(root, fc, rel + [c.name], c, env);
      ChildrenAbortInside(root, f, rel, n, i + 1, env);
      if o1.Aborted? {
        InsideEntry(o1.path, f, c.name, env.sep);
      }
    }
  }

  /** The plan of an entry followed by the plans of its later siblings stays
      under the root and under the directory. */
  lemma PlacedConcat(root: string, f: string, fc: string, tail: string, ms1: seq<Move>, ms2: seq<Move>, sep: char)
    requires fc == f + tail
    requires Placed(root, fc, ms1, sep) && Placed(root, f, ms2, sep)
    ensures Placed(root, f, ms1 + ms2, sep)
  {
    var ms := ms1 + ms2;
    forall k | 0 <= k < |ms|
      ensures StartsWith(ms[k].dst, root + [sep]) && StartsWith(ms[k].src, f)
    {
      if k < |ms1| {
        assert ms[k] == ms1[k];
        StartsWithLonger(ms[k].src, f, tail);
      } else {
        assert ms[k] == ms2[k - |ms1|];
      }
    }
  }

  /** `main`: the plans of the root paths, concatenated in argument order. */
  function PlanRoots(tops: seq<(string, Node)>, env: Env): (o: PlanOutcome)
    ensures o.Aborted? ==> o.why == DateWithoutMonth
    ensures o.Aborted? ==> exists i :: 0 <= i < |tops| && StartsWith(o.path, tops[i].0)
    decreases |tops|
  {
    if |tops| == 0 then Planned([])
    else
      match PlanPath(tops[0].0, tops[0].1, env)
      case Aborted(p, why) =>
        NodeAbortInside(tops[0].0, tops[0].0, [], tops[0].1, env);
        Aborted(p, why)
      case Planned(first) =>
        match PlanRoots(tops[1..], env)
        case Aborted(p, why) =>
          var i :| 0 <= i < |tops[1..]| && StartsWith(p, tops[1..][i].0);
          assert tops[i + 1] == tops[1..][i];
          Aborted(p, why)
        case Planned(rest) => Planned(first + rest)
  }

  predicate InRoot(p: string, root: string, sep: char) {
    StartsWith(p, root + [sep])
  }

  /** `p` lies under one of the roots of `tops`. */
  predicate InSomeRoot(p: string, tops: seq<(string, Node)>, sep: char)
    decreases |tops|
  {
    |tops| > 0 && (InRoot(p, tops[0].0, sep) || InSomeRoot(p, tops[1..], sep))
  }

  predicate UnderSomeRoot(ms: seq<Move>, tops: seq<(string, Node)>, sep: char) {
    forall k :: 0 <= k < |ms| ==> InSomeRoot(ms[k].dst, tops, sep)
  }

  /** Every move `main` plans lands under one of the roots it was given. */
  lemma {:induction false} PlanRootsUnderRoots(tops: seq<(string, Node)>, env: Env)
    ensures PlanRoots(tops, env).Planned? ==> UnderSomeRoot(PlanRoots(tops, env).moves, tops, env.sep)
    decreases |tops|
  {
    if |tops| > 0 {
      var o1 := PlanPath(tops[0].0, tops[0].1, env);
      NodePlanShape(tops[0].0, tops[0].0, [], tops[0].1, env);
      PlanRootsUnderRoots(tops[1..], env);
      var o2 := PlanRoots(tops[1..], env);
      if o1.Planned? && o2.Planned? {
        assert PlanRoots(tops, env) == Planned(o1.moves + o2.moves);
        UnderSomeRootConcat(o1.moves, o2.moves, tops, env.sep);
      }
    }
  }

  lemma UnderSomeRootConcat(ms1: seq<Move>, ms2: seq<Move>, tops: seq<(string, Node)>, sep: char)
    requires |tops| > 0
    requires forall k :: 0 <= k < |ms1| ==> InRoot(ms1[k].dst, tops[0].0, sep)
    requires UnderSomeRoot(ms2, tops[1..], sep)
    ensures UnderSomeRoot(ms1 + ms2, tops, sep)
  {
    var ms := ms1 + ms2;
    forall k | 0 <= k < |ms|
      ensures InSomeRoot(ms[k].dst, tops, sep)
    {
      if k < |ms1| {
        assert ms[k] == ms1[k];
      } else {
        assert ms[k] == ms2[k - |ms1|];
      }
    }
  }
}

=== FILE: text.dfy ===
/** String and path helpers shared by the media tools: Python's `str.split`
    on one-character separators, joins, prefix and suffix tests, ASCII case
    folding, and the basename / extension split of a path. */
module Text {

  datatype Option<T> = None | Some(value: T)

  /** No character of `s` belongs to `seps`. */
  predicate Free(s: string, seps: set<char>) {
    forall j :: 0 <= j < |s| ==> s[j] !in seps
  }

  /** Python's split on every occurrence of a separator character: adjacent
      separators give empty parts, and the empty string gives one empty part. */
  function SplitOn(s: string, seps: set<char>): (parts: seq<string>)
    ensures |parts| >= 1
    ensures forall i :: 0 <= i < |parts| ==> Free(parts[i], seps)
    decreases |s|
  {
    if |s| == 0 then [""]
    else
      var rest := SplitOn(s[1..], seps);
      if s[0] in seps then [""] + rest
      else [[s[0]] + rest[0]] + rest[1..]
  }

  /** Python's `c.join(parts)`. */
  function JoinWith(parts: seq<string>, c: char): string
    decreases |parts|
  {
    if |parts| == 0 then ""
    else if |parts| == 1 then parts[0]
    else parts[0] + [c] + JoinWith(parts[1..], c)
  }

  /** Python's `"".join(parts)`. */
  function Concat(parts: seq<string>): string
    decreases |parts|
  {
    if |parts| == 0 then "" else parts[0] + Concat(parts[1..])
  }

  /** `s` with every character of `seps` deleted. */
  function Remove(s: string, seps: set<char>): (r: string)
    ensures Free(r, seps)
    ensures |r| <= |s|
    decreases |s|
  {
    if |s| == 0 then ""
    else (if s[0] in seps then "" else [s[0]]) + Remove(s[1..], seps)
  }

  lemma FreeConcat(a: string, b: string, seps: set<char>)
    requires Free(a, seps) && Free(b, seps)
    ensures Free(a + b, seps)
  {
    assert forall j :: |a| <= j < |a + b| ==> (a + b)[j] == b[j - |a|];
  }

  /** Number of characters of `s` that belong to `seps`. */
  function Count(s: string, seps: set<char>): nat
    decreases |s|
  {
    if |s| == 0 then 0
    else (if s[0] in seps then 1 else 0) + Count(s[1..], seps)
  }

  lemma {:induction false} CountZero(s: string, seps: set<char>)
    ensures Count(s, seps) == 0 <==> Free(s, seps)
    decreases |s|
  {
    if |s| > 0 {
      CountZero(s[1..], seps);
      assert forall j :: 1 <= j < |s| ==> s[j] == s[1..][j - 1];
    }
  }

  /** Splitting on one character and joining with it gives the text back. */
  lemma {:induction false} SplitJoin(s: string, c: char)
    ensures JoinWith(SplitOn(s, {c}), c) == s
    decreases |s|
  {
    if |s| > 0 {
      var rest := SplitOn(s[1..], {c});
      SplitJoin(s[1..], c);
      if s[0] == c {
        assert SplitOn(s, {c}) == [""] + rest;
        assert ([""] + rest)[1..] == rest;
        assert s == [c] + s[1..];
      } else {
        var parts := [[s[0]] + rest[0]] + rest[1..];
        assert SplitOn(s, {c}) == parts;
        if |rest| == 1 {
          assert s == [s[0]] + s[1..];
        } else {
          assert parts[1..] == rest[1..];
          assert JoinWith(rest, c) == rest[0] + [c] + JoinWith(rest[1..], c);
          assert s == [s[0]] + s[1..];
        }
      }
    }
  }

  /** Splitting a text that contains no separator yields that text alone. */
  lemma {:induction false} SplitFree(a: string, seps: set<char>)
    requires Free(a, seps)
    ensures SplitOn(a, seps) == [a]
    decreases |a|
  {
    if |a| > 0 {
      SplitFree(a[1..], seps);
      assert a == [a[0]] + a[1..];
    }
  }

  /** A separator right after a separator-free part ends exactly that part. */
  lemma {:induction false} SplitAfterPart(seps: set<char>, a: string, c: char, b: string)
    requires c in seps && Free(a, seps)
    ensures SplitOn(a + [c] + b, seps) == [a] + SplitOn(b, seps)
    decreases |a|
  {
    var s := a + [c] + b;
    if |a| == 0 {
      assert s[1..] == b;
    } else {
      assert s[1..] == a[1..] + [c] + b;
      SplitAfterPart(seps, a[1..], c, b);
      var rest := SplitOn(s[1..], seps);
      assert [s[0]] + rest[0] == a;
    }
  }

  /** Joining separator-free parts and splitting again gives the parts back. */
  lemma {:induction false} JoinSplit(parts: seq<string>, c: char)
    requires |parts| >= 1
    requires forall i :: 0 <= i < |parts| ==> Free(parts[i], {c})
    ensures SplitOn(JoinWith(parts, c), {c}) == parts
    decreases |parts|
  {
    if |parts| == 1 {
      SplitFree(parts[0], {c});
    } else {
      JoinSplit(parts[1..], c);
      SplitAfterPart({c}, parts[0], c, JoinWith(parts[1..], c));
      assert parts == [parts[0]] + parts[1..];
    }
  }

  /** Joining parts free of `seps` with a character outside `seps` stays free. */
  lemma {:induction false} JoinFree(parts: seq<string>, c: char, seps: set<char>)
    requires c !in seps
    requires forall i :: 0 <= i < |parts| ==> Free(parts[i], seps)
    ensures Free(JoinWith(parts, c), seps)
    decreases |parts|
  {
    if |parts| > 1 {
      JoinFree(parts[1..], c, seps);
      var tail := JoinWith(parts[1..], c);
      var s := parts[0] + [c] + tail;
      forall j | 0 <= j < |s|
        ensures s[j] !in seps
      {
        if j < |parts[0]| {
          assert s[j] == parts[0][j];
        } else if j > |parts[0]| {
          assert s[j] == tail[j - |parts[0]| - 1];
        }
      }
    }
  }

  /** Concatenating the parts of a split is deleting the separators. */
  lemma {:induction false} ConcatSplit(s: string, seps: set<char>)
    ensures Concat(SplitOn(s, seps)) == Remove(s, seps)
    decreases |s|
  {
    if |s| > 0 {
      ConcatSplit(s[1..], seps);
      var rest := SplitOn(s[1..], seps);
      if s[0] in seps {
        assert ([""] + rest)[1..] == rest;
      } else {
        var parts := [[s[0]] + rest[0]] + rest[1..];
        assert parts[1..] == rest[1..];
        assert Concat(rest) == rest[0] + Concat(rest[1..]);
      }
    }
  }

  /** Two separators in a row give an empty part, never the first one. */
  lemma {:induction false} AdjacentSeparators(s: string, seps: set<char>, i: int)
    requires 0 <= i && i + 1 < |s| && s[i] in seps && s[i + 1] in seps
    ensures exists k :: 1 <= k < |SplitOn(s, seps)| && SplitOn(s, seps)[k] == ""
    decreases |s|
  {
    var rest := SplitOn(s[1..], seps);
    if i == 0 {
      assert rest[0] == "";
      assert SplitOn(s, seps)[1] == "";
    } else {
      AdjacentSeparators(s[1..], seps, i - 1);
      var k :| 1 <= k < |rest| && rest[k] == "";
      if s[0] in seps {
        assert SplitOn(s, seps)[k + 1] == "";
      } else {
        assert SplitOn(s, seps)[k] == "";
      }
    }
  }

  /** A split has one part more than the text has separators. */
  lemma {:induction false} SplitCount(s: string, seps: set<char>)
    ensures |SplitOn(s, seps)| == 1 + Count(s, seps)
    decreases |s|
  {
    if |s| > 0 {
      SplitCount(s[1..], seps);
    }
  }

  lemma {:induction false} ConcatAppend(a: seq<string>, b: seq<string>)
    ensures Concat(a + b) == Concat(a) + Concat(b)
    decreases |a|
  {
    if |a| > 0 {
      ConcatAppend(a[1..], b);
      assert (a + b)[1..] == a[1..] + b;
      assert (a + b)[0] == a[0];
      calc {
        Concat(a + b);
        a[0] + Concat(a[1..] + b);
        a[0] + (Concat(a[1..]) + Concat(b));
        (a[0] + Concat(a[1..])) + Concat(b);
      }
    } else {
      assert a + b == b;
    }
  }

  predicate StartsWith(s: string, p: string) {
    |p| <= |s| && s[..|p|] == p
  }

  predicate EndsWith(s: string, p: string) {
    |p| <= |s| && s[|s| - |p|..] == p
  }

  /** `str.lower()` on ASCII letters. */
  function LowerChar(c: char): char {
    if 'A' <= c <= 'Z' then (c as int + 32) as char else c
  }

  function Lower(s: string): string {
    seq(|s|, i requires 0 <= i < |s| => LowerChar(s[i]))
  }

  predicate IsDigit(c: char) {
    '0' <= c <= '9'
  }

  predicate AllDigits(s: string) {
    forall j :: 0 <= j < |s| ==> IsDigit(s[j])
  }

  /** `"".join(filter(str.isdigit, s))` over ASCII digits. */
  function Digits(s: string): (r: string)
    ensures AllDigits(r)
    ensures |r| <= |s|
    ensures AllDigits(s) ==> r == s
    ensures (forall j :: 0 <= j < |s| ==> !IsDigit(s[j])) ==> r == ""
    decreases |s|
  {
    if |s| == 0 then ""
    else (if IsDigit(s[0]) then [s[0]] else "") + Digits(s[1..])
  }

  /** Filtering a concatenation filters each side, in order: the digits kept
      are those of the text, in the order they appear. */
  lemma {:induction false} DigitsAppend(a: string, b: string)
    ensures Digits(a + b) == Digits(a) + Digits(b)
    decreases |a|
  {
    if |a| == 0 {
      assert a + b == b;
    } else {
      var h := if IsDigit(a[0]) then [a[0]] else "";
      assert (a + b)[0] == a[0];
      assert (a + b)[1..] == a[1..] + b;
      DigitsAppend(a[1..], b);
      assert Digits(a + b) == h + (Digits(a[1..]) + Digits(b));
      assert Digits(a) == h + Digits(a[1..]);
    }
  }

  /** Python's `s.rfind(c)`: the last index holding `c`, or -1. */
  function LastIndex(s: string, c: char): (r: int)
    ensures -1 <= r < |s|
    ensures r >= 0 ==> s[r] == c
    ensures forall j :: r < j < |s| ==> s[j] != c
    decreases |s|
  {
    if |s| == 0 then -1
    else if s[|s| - 1] == c then |s| - 1
    else LastIndex(s[..|s| - 1], c)
  }

  /** The last index is the only index holding `c` with no `c` after it. */
  lemma LastIndexUnique(s: string, c: char, k: int)
    requires 0 <= k < |s| && s[k] == c
    requires forall j :: k < j < |s| ==> s[j] != c
    ensures LastIndex(s, c) == k
  {
  }

  /** The simple separator join standing for `os.path.join(a, b)`. */
  function PathJoin(a: string, b: string, sep: char): string {
    a + [sep] + b
  }

  /** `os.path.basename`: the text after the last separator. */
  function BaseName(p: string, sep: char): (r: string)
    ensures Free(r, {sep})
    ensures EndsWith(p, r)
  {
    var k := LastIndex(p, sep) + 1;
    var r := p[k..];
    assert forall j :: 0 <= j < |r| ==> r[j] == p[k + j];
    assert forall j :: 0 <= j < |r| ==> r[j] != sep;
    assert p[|p| - |r|..] == r;
    r
  }

  lemma BaseNameOfJoin(dir: string, name: string, sep: char)
    requires Free(name, {sep})
    ensures BaseName(PathJoin(dir, name, sep), sep) == name
  {
    var p := PathJoin(dir, name, sep);
    assert p[|dir|] == sep;
    assert forall j :: |dir| < j < |p| ==> p[j] == name[j - |dir| - 1];
    LastIndexUnique(p, sep, |dir|);
    assert p[|dir| + 1..] == name;
  }

  /** The extension `os.path.splitext` reports for a base name: the text
      from the last dot on, provided some character other than a dot comes
      before that dot; otherwise none (so `.jpg` alone has no extension). */
  function Extension(name: string): (ext: string)
    ensures ext == "" || (ext[0] == '.' && EndsWith(name, ext) && Free(ext[1..], {'.'}) && |ext| < |name|)
  {
    var d := LastIndex(name, '.');
    if d > 0 && exists k :: 0 <= k < d && name[k] != '.'
    then
      assert forall j :: 1 <= j < |name[d..]| ==> name[d..][j] == name[d + j];
      name[d..]
    else ""
  }

  /** The name without its extension (`splitext(f)[0]` seen from the base name). */
  function Stem(name: string): (r: string)
    ensures r + Extension(name) == name
  {
    name[..|name| - |Extension(name)|]
  }

  /** Prepending text moves the last occurrence of `c` along with it. */
  lemma LastIndexOfPrefixed(p: string, name: string, c: char)
    requires LastIndex(name, c) >= 0
    ensures LastIndex(p + name, c) == |p| + LastIndex(name, c)
  {
    var d := LastIndex(name, c);
    var s := p + name;
    assert s[|p| + d] == name[d];
    forall j | |p| + d < j < |s|
      ensures s[j] != c
    {
      assert s[j] == name[j - |p|];
    }
    LastIndexUnique(s, c, |p| + d);
  }

  /** Prepending text to a name that has an extension keeps that extension. */
  lemma ExtensionOfPrefixed(p: string, name: string)
    requires Extension(name) != ""
    ensures Extension(p + name) == Extension(name)
  {
    var d := LastIndex(name, '.');
    var s := p + name;
    LastIndexOfPrefixed(p, name, '.');
    assert d > 0 && exists k :: 0 <= k < d && name[k] != '.';
    var k :| 0 <= k < d && name[k] != '.';
    assert s[|p| + k] == name[k];
    assert 0 <= |p| + k < |p| + d && s[|p| + k] != '.';
    assert s[|p| + d..] == name[d..];
    assert Extension(name) == name[d..];
    assert Extension(s) == s[|p| + d..];
  }
}

=== FILE: tilde.dfy ===
/** `process_dir` of deduplicate_photos.py: in one directory, every file whose
    name ends in `~` is a backup of the file named without that `~`. A backup
    of an original of the same positive size is deleted, a backup of an
    original of another size is kept, and a backup without an original is
    renamed to the original's name. The directory is a map from file name
    to file, plus the names of its sub-directories. */
module TildeBackups {
  import opened Text
  import opened Mover

  datatype DirState = DirState(files: map<string, FileData>, subdirs: set<string>)

  /** The filter of line 89: the last character is `~`. */
  predicate IsBackup(name: string) {
    |name| > 0 && name[|name| - 1] == '~'
  }

  /** `name[:-1]`: the original a backup stands for (line 91). */
  function Original(name: string): (o: string)
    requires IsBackup(name)
    ensures o + "~" == name
  {
    name[..|name| - 1]
  }

  /** The list comprehension of line 89. `_f[-1]` raises `IndexError` on an
      empty name before any file is touched; that is `None` here. */
  function Candidates(names: seq<string>): (r: Option<seq<string>>)
    ensures r.None? <==> "" in names
    ensures r.Some? ==> forall x :: x in r.value <==> x in names && IsBackup(x)
    decreases |names|
  {
    if |names| == 0 then Some([])
    else if names[0] == "" then None
    else
      var rest := Candidates(names[1..]);
      assert forall x :: x in names <==> x == names[0] || x in names[1..];
      if rest.None? then None
      else if IsBackup(names[0]) then Some([names[0]] + rest.value)
      else rest
  }

  /** The filter keeps the listing's order: the candidates of two listings
      one after the other are the candidates of the first, then those of the
      second. */
  lemma {:induction false} CandidatesAppend(a: seq<string>, b: seq<string>)
    requires "" !in a && "" !in b
    ensures Candidates(a + b) == Some(Candidates(a).value + Candidates(b).value)
    decreases |a|
  {
    if |a| == 0 {
      assert a + b == b;
      assert Candidates(b).Some?;
      assert Candidates(a).value + Candidates(b).value == Candidates(b).value;
    } else {
      assert (a + b)[0] == a[0] && (a + b)[1..] == a[1..] + b;
      assert "" !in a[1..];
      CandidatesAppend(a[1..], b);
      var x, y := Candidates(a[1..]).value, Candidates(b).value;
      assert Candidates(a + b) == if IsBackup(a[0]) then Some([a[0]] + (x + y)) else Some(x + y);
      assert Candidates(a) == if IsBackup(a[0]) then Some([a[0]] + x) else Some(x);
      assert [a[0]] + (x + y) == [a[0]] + x + y;
    }
  }

  /** A single name is kept exactly when it is a backup. */
  lemma CandidatesSingle(x: string)
    requires x != ""
    ensures Candidates([x]) == Some(if IsBackup(x) then [x] else [])
  {
    assert [x][1..] == [];
    assert [x] + [] == [x];
  }

  /** Some file of a non-empty directory. */
  ghost function AnyName(m: map<string, FileData>): (k: string)
    requires |m| > 0
    ensures k in m
  {
    var k :| k in m; k
  }

  /** Sum of the sizes of the files in a map. */
  ghost function Total(m: map<string, FileData>): nat
    decreases |m|
  {
    if |m| == 0 then 0
    else Size(m[AnyName(m)]) + Total(m - {AnyName(m)})
  }

  lemma {:induction false} TotalRemove(m: map<string, FileData>, k: string)
    requires k in m
    ensures Total(m) == Size(m[k]) + Total(m - {k})
    decreases |m|
  {
    var j := AnyName(m);
    if j != k {
      TotalRemove(m - {j}, k);
      TotalRemove(m - {k}, j);
      assert m - {j} - {k} == m - {k} - {j};
    }
  }

  lemma TotalInsert(m: map<string, FileData>, k: string, v: FileData)
    requires k !in m
    ensures Total(m[k := v]) == Size(v) + Total(m)
  {
    TotalRemove(m[k := v], k);
    assert m[k := v] - {k} == m;
  }

  /** Deleting a file takes its size off the total. */
  lemma TotalDelete(m: map<string, FileData>, k: string)
    requires k in m
    ensures Total(m - {k}) + Size(m[k]) == Total(m)
  {
    TotalRemove(m, k);
  }

  /** Renaming a file onto a free name keeps the total. */
  lemma TotalRename(m: map<string, FileData>, k: string, o: string)
    requires k in m && o !in m
    ensures Total((m - {k})[o := m[k]]) == Total(m)
  {
    TotalRemove(m, k);
    TotalInsert(m - {k}, o, m[k]);
  }

  datatype Action = Deleted | Kept | Recovered

  datatype StepResult = Stepped(state: DirState, gained: nat, action: Action) | Errors

  /** The names a backup's original may have that denote a directory on
      every listing: `""` (the joined path is the directory itself), `"."`
      and `".."`. `os.path.isfile` is false for them, and renaming a file
      onto them raises. */
  predicate DirectoryName(o: string) {
    o == "" || o == "." || o == ".."
  }

  /** What happens to one backup (lines 90-104). `os.stat` of a backup that
      is gone, and `os.rename` of a missing backup, onto a sub-directory or
      onto the directory itself or its parent, raise. */
  function Reconcile(st: DirState, name: string): (r: StepResult)
    requires IsBackup(name)
    ensures r.Errors? <==> name !in st.files || DirectoryName(Original(name))
                           || (Original(name) !in st.files && Original(name) in st.subdirs)
    ensures r.Stepped? ==> r.state.subdirs == st.subdirs
    ensures r.Stepped? ==> name in st.files && r.gained == (if r.action == Deleted then Size(st.files[name]) else 0)
    ensures r.Stepped? ==> forall p :: p != name && p != Original(name) ==>
              (p in r.state.files <==> p in st.files) && (p in st.files ==> r.state.files[p] == st.files[p])
    ensures r.Stepped? && r.action == Deleted ==>
              && Original(name) in st.files && 0 < Size(st.files[Original(name)]) == Size(st.files[name])
              && name !in r.state.files && Original(name) in r.state.files
              && r.state.files[Original(name)] == st.files[Original(name)]
    ensures r.Stepped? && r.action == Kept ==>
              && Original(name) in st.files && name in st.files && !(0 < Size(st.files[Original(name)]) == Size(st.files[name]))
              && r.state == st
    ensures r.Stepped? && r.action == Recovered ==>
              && Original(name) !in st.files
              && name in st.files && name !in r.state.files && Original(name) in r.state.files
              && r.state.files[Original(name)] == st.files[name]
  {
    var org := Original(name);
    if name !in st.files then Errors
    else if DirectoryName(org) then Errors
    else if org in st.files then
      var size := Size(st.files[org]);
      if size > 0 && size == Size(st.files[name]) then
        Stepped(st.(files := st.files - {name}), size, Deleted)
      else Stepped(st, 0, Kept)
    else if org in st.subdirs then Errors
    else
      var files := (st.files - {name})[org := st.files[name]];
      Stepped(st.(files := files), 0, Recovered)
  }

  /** The backups `~`, `.~` and `..~` stand for the directory itself or its
      parent: whatever else the directory holds, `process_dir` raises on them. */
  lemma DirectoryBackupsRaise(dir: string, st: DirState, name: string)
    requires name == "~" || name == ".~" || name == "..~"
    ensures Reconcile(st, name) == Errors
    ensures ProcessDir(dir, [name], st) == Raised(st)
  {
    assert IsBackup(name) && DirectoryName(Original(name));
    CandidatesSingle(name);
  }

  /** A path the backups in `cands` may touch: one of them, or the original
      of one of them. */
  predicate Touched(cands: seq<string>, p: string) {
    p in cands || p + "~" in cands
  }

  datatype SweepOutcome = Finished(dir: string, state: DirState, saved: nat) | Raised(state: DirState)

  /** The loop of lines 89-104 over the backups, with `total_saved`. */
  function Sweep(dir: string, st: DirState, cands: seq<string>, saved: nat): (r: SweepOutcome)
    requires forall i :: 0 <= i < |cands| ==> IsBackup(cands[i])
    ensures r.state.subdirs == st.subdirs
    ensures r.Finished? ==> r.dir == dir && r.saved >= saved
    decreases |cands|
  {
    if |cands| == 0 then Finished(dir, st, saved)
    else
      var name := cands[0];
      match Reconcile(st, name)
      case Errors => Raised(st)
      case Stepped(next, gained, _) => Sweep(dir, next, cands[1..], saved + gained)
  }

  /** `process_dir(r, files)`: the directory's outcome, and `r` back when the
      loop completes. */
  function ProcessDir(dir: string, names: seq<string>, st: DirState): (r: SweepOutcome)
    ensures "" in names ==> r == Raised(st)
    ensures r.state.subdirs == st.subdirs
    ensures r.Finished? ==> r.dir == dir
  {
    match Candidates(names)
    case None => Raised(st)
    case Some(cands) => Sweep(dir, st, cands, 0)
  }

  /** A step removes from the directory exactly the bytes it adds to
      `total_saved`. */
  lemma ReconcileConserves(st: DirState, name: string)
    requires IsBackup(name) && Reconcile(st, name).Stepped?
    ensures Total(Reconcile(st, name).state.files) + Reconcile(st, name).gained == Total(st.files)
  {
    var r := Reconcile(st, name);
    if r.action == Deleted {
      TotalDelete(st.files, name);
    } else if r.action == Recovered {
      TotalRename(st.files, name, Original(name));
    }
  }

  /** The loop leaves alone every path that is neither a backup it visits
      nor the original of one. */
  lemma {:induction false} SweepFrame(dir: string, st: DirState, cands: seq<string>, saved: nat, p: string)
    requires forall i :: 0 <= i < |cands| ==> IsBackup(cands[i])
    requires !Touched(cands, p)
    ensures var out := Sweep(dir, st, cands, saved).state.files;
            (p in out <==> p in st.files) && (p in st.files ==> out[p] == st.files[p])
    decreases |cands|
  {
    if |cands| > 0 {
      SweepStep(dir, st, cands, saved);
      var step := Reconcile(st, cands[0]);
      if step.Stepped? {
        var rest := cands[1..];
        UntouchedStep(st, cands, p);
        SweepFrame(dir, step.state, rest, saved + step.gained, p);
        assert Sweep(dir, st, cands, saved) == Sweep(dir, step.state, rest, saved + step.gained);
      } else {
        assert Sweep(dir, st, cands, saved) == Raised(st);
      }
    }
  }

  lemma UntouchedStep(st: DirState, cands: seq<string>, p: string)
    requires |cands| > 0 && forall i :: 0 <= i < |cands| ==> IsBackup(cands[i])
    requires !Touched(cands, p)
    requires Reconcile(st, cands[0]).Stepped?
    ensures !Touched(cands[1..], p)
    ensures var mid := Reconcile(st, cands[0]).state.files;
            (p in mid <==> p in st.files) && (p in st.files ==> mid[p] == st.files[p])
  {
    var name := cands[0];
    assert p != name && p + "~" != name;
    assert p != Original(name);
    assert forall x :: x in cands[1..] ==> x in cands;
  }

  /** `process_dir` leaves alone every file that is neither a listed backup
      nor the original of one. */
  lemma ProcessDirFrame(dir: string, names: seq<string>, st: DirState, p: string)
    requires !(IsBackup(p) && p in names) && p + "~" !in names
    ensures var out := ProcessDir(dir, names, st).state.files;
            (p in out <==> p in st.files) && (p in st.files ==> out[p] == st.files[p])
  {
    var c := Candidates(names);
    if c.Some? {
      SweepFrame(dir, st, c.value, 0, p);
    }
  }

  /** Backups that cannot interfere with each other: distinct, all present,
      none the original of another, and no original a sub-directory, the
      directory itself or its parent. */
  predicate BackupsIndependent(st: DirState, cands: seq<string>)
    requires forall i :: 0 <= i < |cands| ==> IsBackup(cands[i])
  {
    && (forall i, j :: 0 <= i < j < |cands| ==> cands[i] != cands[j])
    && (forall i :: 0 <= i < |cands| ==> cands[i] in st.files)
    && (forall i :: 0 <= i < |cands| ==> Original(cands[i]) !in cands && Original(cands[i]) !in st.subdirs)
    && (forall i :: 0 <= i < |cands| ==> !DirectoryName(Original(cands[i])))
  }

  /** Line 95 on the directory as listed: the original exists and has the
      backup's positive size. */
  predicate Deletable(before: map<string, FileData>, c: string)
    requires IsBackup(c) && c in before
  {
    Original(c) in before && 0 < Size(before[Original(c)]) == Size(before[c])
  }

  /** The fate of backup `c` judged against the directory as it was listed. */
  predicate Reconciled(before: map<string, FileData>, after: map<string, FileData>, c: string)
    requires IsBackup(c) && c in before
  {
    var o := Original(c);
    if Deletable(before, c) then
      c !in after && o in after && after[o] == before[o]
    else if o in before then
      c in after && after[c] == before[c] && o in after && after[o] == before[o]
    else
      c !in after && o in after && after[o] == before[c]
  }

  /** Agreeing on a backup and its original, two listings judge it alike. */
  lemma ReconciledTransfer(before: map<string, FileData>, mid: map<string, FileData>, after: map<string, FileData>, c: string)
    requires IsBackup(c) && c in before && c in mid && mid[c] == before[c]
    requires Original(c) in mid <==> Original(c) in before
    requires Original(c) in before ==> mid[Original(c)] == before[Original(c)]
    requires Reconciled(mid, after, c)
    ensures Reconciled(before, after, c)
  {
  }

  /** After the first backup is handled, the rest are still independent and
      none of them touches the first backup or its original. */
  lemma IndependentRest(st: DirState, cands: seq<string>, next: DirState)
    requires |cands| > 0 && forall i :: 0 <= i < |cands| ==> IsBackup(cands[i])
    requires BackupsIndependent(st, cands)
    requires Reconcile(st, cands[0]) == Stepped(next, Reconcile(st, cands[0]).gained, Reconcile(st, cands[0]).action)
    ensures BackupsIndependent(next, cands[1..])
    ensures !Touched(cands[1..], cands[0]) && !Touched(cands[1..], Original(cands[0]))
    ensures forall d :: d in cands[1..] ==>
              && d in next.files && d in st.files && next.files[d] == st.files[d]
              && (Original(d) in next.files <==> Original(d) in st.files)
              && (Original(d) in st.files ==> next.files[Original(d)] == st.files[Original(d)])
  {
    var c := cands[0];
    var rest := cands[1..];
    forall i | 0 <= i < |rest|
      ensures rest[i] != c && rest[i] != Original(c)
      ensures Original(rest[i]) != c && Original(rest[i]) != Original(c)
    {
      assert rest[i] == cands[i + 1];
    }
    assert Original(c) + "~" == c;
  }

  /** One turn of the loop. */
  lemma SweepStep(dir: string, st: DirState, cands: seq<string>, saved: nat)
    requires |cands| > 0 && forall i :: 0 <= i < |cands| ==> IsBackup(cands[i])
    ensures Reconcile(st, cands[0]).Errors? ==> Sweep(dir, st, cands, saved) == Raised(st)
    ensures Reconcile(st, cands[0]).Stepped? ==>
              Sweep(dir, st, cands, saved) == Sweep(dir, Reconcile(st, cands[0]).state, cands[1..], saved + Reconcile(st, cands[0]).gained)
  {
  }

  /** The first backup's own step, seen through the rest of the loop. */
  lemma FirstReconciled(st: DirState, c: string, next: DirState, out: map<string, FileData>)
    requires IsBackup(c) && c in st.files
    requires Reconcile(st, c).Stepped? && Reconcile(st, c).state == next
    requires c in next.files <==> c in out
    requires c in next.files ==> out[c] == next.files[c]
    requires Original(c) in next.files <==> Original(c) in out
    requires Original(c) in next.files ==> out[Original(c)] == next.files[Original(c)]
    ensures Reconciled(st.files, out, c)
  {
  }

  /** The sizes of the deletable backups among `cands`, added up. */
  function SavedBy(before: map<string, FileData>, cands: seq<string>): nat
    requires forall i :: 0 <= i < |cands| ==> IsBackup(cands[i]) && cands[i] in before
    decreases |cands|
  {
    if |cands| == 0 then 0
    else (if Deletable(before, cands[0]) then Size(before[cands[0]]) else 0) + SavedBy(before, cands[1..])
  }

  /** Listings that agree on some backups and their originals add up the
      same savings for them. */
  lemma {:induction false} SavedByAgree(a: map<string, FileData>, b: map<string, FileData>, cands: seq<string>)
    requires forall i :: 0 <= i < |cands| ==> IsBackup(cands[i])
    requires forall d :: d in cands ==> d in a && d in b && a[d] == b[d] && (Original(d) in a <==> Original(d) in b)
    requires forall d :: d in cands && Original(d) in a ==> a[Original(d)] == b[Original(d)]
    ensures forall i :: 0 <= i < |cands| ==> cands[i] in a && cands[i] in b
    ensures SavedBy(a, cands) == SavedBy(b, cands)
    decreases |cands|
  {
    assert forall i :: 0 <= i < |cands| ==> cands[i] in cands;
    if |cands| > 0 {
      assert forall x :: x in cands[1..] ==> x in cands;
      assert cands[0] in cands;
      SavedByAgree(a, b, cands[1..]);
    }
  }

  /** Independent backups are each reconciled against the original listing,
      and the loop runs to the end. */
  lemma {:induction false} SweepIndependent(dir: string, st: DirState, cands: seq<string>, saved: nat)
    requires forall i :: 0 <= i < |cands| ==> IsBackup(cands[i])
    requires BackupsIndependent(st, cands)
    ensures Sweep(dir, st, cands, saved).Finished?
    ensures forall i :: 0 <= i < |cands| ==> Reconciled(st.files, Sweep(dir, st, cands, saved).state.files, cands[i])
    decreases |cands|
  {
    if |cands| > 0 {
      var c := cands[0];
      var rest := cands[1..];
      var step := Reconcile(st, c);
      assert step.Stepped?;
      var next := step.state;
      IndependentRest(st, cands, next);
      SweepIndependent(dir, next, rest, saved + step.gained);
      var out := Sweep(dir, next, rest, saved + step.gained).state.files;
      RestReconciled(st.files, next.files, out, cands);
      SweepFrame(dir, next, rest, saved + step.gained, c);
      SweepFrame(dir, next, rest, saved + step.gained, Original(c));
      FirstReconciled(st, c, next, out);
      AllReconciled(st.files, out, cands);
      SweepStep(dir, st, cands, saved);
      assert Sweep(dir, st, cands, saved) == Sweep(dir, next, rest, saved + step.gained);
    }
  }

  lemma AllReconciled(before: map<string, FileData>, after: map<string, FileData>, cands: seq<string>)
    requires |cands| > 0 && forall i :: 0 <= i < |cands| ==> IsBackup(cands[i]) && cands[i] in before
    requires Reconciled(before, after, cands[0])
    requires forall i :: 1 <= i < |cands| ==> Reconciled(before, after, cands[i])
    ensures forall i :: 0 <= i < |cands| ==> Reconciled(before, after, cands[i])
  {
  }

  /** The backups after the first, reconciled against the listing after the
      first step, are reconciled against the original listing too. */
  lemma RestReconciled(before: map<string, FileData>, mid: map<string, FileData>, after: map<string, FileData>, cands: seq<string>)
    requires |cands| > 0 && forall i :: 0 <= i < |cands| ==> IsBackup(cands[i])
    requires forall d :: d in cands[1..] ==>
              && d in mid && d in before && mid[d] == before[d]
              && (Original(d) in mid <==> Original(d) in before)
              && (Original(d) in before ==> mid[Original(d)] == before[Original(d)])
    requires forall i :: 0 <= i < |cands[1..]| ==> Reconciled(mid, after, cands[1..][i])
    ensures forall i :: 1 <= i < |cands| ==> Reconciled(before, after, cands[i])
  {
    var rest := cands[1..];
    forall i | 1 <= i < |cands|
      ensures Reconciled(before, after, cands[i])
    {
      var d := rest[i - 1];
      assert d == cands[i] && d in rest;
      assert Reconciled(mid, after, rest[i - 1]);
      ReconciledTransfer(before, mid, after, d);
    }
  }

  /** For independent backups, `total_saved` is the sum of the sizes of the
      backups deleted. */
  lemma {:induction false} SweepIndependentSaved(dir: string, st: DirState, cands: seq<string>, saved: nat)
    requires forall i :: 0 <= i < |cands| ==> IsBackup(cands[i])
    requires BackupsIndependent(st, cands)
    ensures Sweep(dir, st, cands, saved).Finished?
    ensures Sweep(dir, st, cands, saved).saved == saved + SavedBy(st.files, cands)
    decreases |cands|
  {
    if |cands| > 0 {
      var c := cands[0];
      var rest := cands[1..];
      var step := Reconcile(st, c);
      assert step.Stepped?;
      var next := step.state;
      SweepStep(dir, st, cands, saved);
      IndependentRest(st, cands, next);
      SweepIndependentSaved(dir, next, rest, saved + step.gained);
      assert forall i :: 0 <= i < |rest| ==> rest[i] == cands[i + 1];
      SavedByAgree(st.files, next.files, rest);
      assert step.gained == (if Deletable(st.files, c) then Size(st.files[c]) else 0);
    }
  }

  /** `process_dir` on a listing whose backups cannot interfere: the loop
      runs to the end and returns `r`, every listed backup is deleted, kept
      or recovered as judged against the directory as listed, and
      `total_saved` is the summed size of the deleted backups. */
  lemma ProcessDirIndependent(dir: string, names: seq<string>, st: DirState)
    requires "" !in names
    requires BackupsIndependent(st, Candidates(names).value)
    ensures ProcessDir(dir, names, st).Finished? && ProcessDir(dir, names, st).dir == dir
    ensures ProcessDir(dir, names, st).saved == SavedBy(st.files, Candidates(names).value)
    ensures forall c :: c in names && IsBackup(c) ==>
              c in st.files && Reconciled(st.files, ProcessDir(dir, names, st).state.files, c)
  {
    var cands := Candidates(names).value;
    SweepIndependent(dir, st, cands, 0);
    SweepIndependentSaved(dir, st, cands, 0);
    assert ProcessDir(dir, names, st) == Sweep(dir, st, cands, 0);
    ListedReconciled(names, cands, st.files, Sweep(dir, st, cands, 0).state.files);
  }

  lemma ListedReconciled(names: seq<string>, cands: seq<string>, before: map<string, FileData>, after: map<string, FileData>)
    requires forall x :: x in cands <==> x in names && IsBackup(x)
    requires forall i :: 0 <= i < |cands| ==> IsBackup(cands[i]) && cands[i] in before
    requires forall i :: 0 <= i < |cands| ==> Reconciled(before, after, cands[i])
    ensures forall c :: c in names && IsBackup(c) ==> c in before && Reconciled(before, after, c)
  {
    forall c | c in names && IsBackup(c)
      ensures c in before && Reconciled(before, after, c)
    {
      var i :| 0 <= i < |cands| && cands[i] == c;
    }
  }
}

=== FILE: timestamp.dfy ===
/** `get_timestamp` of media_process.py: from what the image decoder, the
    Windows property store, the file's mtime and the free-text date parser
    report about one file, the triple (sub-path, prefix, change-file-name).
    The foreign libraries are inputs: `ImageRead` is what PIL returns,
    `PropRead` what the property store returns, `Env.parseName` what
    `dateparser.parse` returns for a string of digits, `Env.now` the clock. */
module Timestamp {
  import opened Text
  import opened Clock

  /** `Image.open(f)._getexif()`: either PIL cannot identify the file, or it
      opens it and the EXIF block (tag name to value) is present or `None`. */
  datatype ImageRead = Unidentified | Opened(exif: Option<map<string, string>>)

  /** `PKEY_Media_DateEncoded` from the property store: a COM error, or the
      property value, which may be missing. */
  datatype PropRead = ComError | PropValue(date: Option<Instant>)

  /** Everything the outside world says about one file. */
  datatype Sources = Sources(image: ImageRead, prop: PropRead, mtime: Instant)

  /** The run's context: `os.sep`, the clock, and the date parser. */
  datatype Env = Env(sep: char, now: Instant, parseName: string -> Option<Instant>)

  /** The triple `get_timestamp` returns. */
  datatype Stamp = Stamp(subpath: string, prefix: string, changeName: bool)

  datatype Reason =
    | CannotOpen        // PIL.UnidentifiedImageError, re-raised as ValueError
    | NoDateTag         // neither DateTimeOriginal nor DateTime
    | BadDateShape      // the value does not split into exactly two parts on ' '
    | DateWithoutMonth  // dt[1] on a date part without ':' (an IndexError)
    | ComFailure        // pywintypes.com_error, re-raised as ValueError
    | Unsupported       // 'Unsupported file': other extension, or no EXIF block

  /** `Invalid` is a ValueError, which the planner catches; `Fatal` is any
      other exception, which nothing in the planner catches. */
  datatype Lookup = Found(stamp: Stamp) | Invalid(reason: Reason) | Fatal(reason: Reason)

  const ImageExtensions: set<string> := {".jpg", ".jpeg"}
  const VideoExtensions: set<string> := {".mp4", ".mp3", ".mov", ".mkv", ".3gp"}

  datatype Kind = Image | Video | Other

  /** The branch `get_timestamp` takes, by the lower-cased extension; what
      that means for a name in a directory is `KindByExtension`. */
  function KindOf(f: string, sep: char): Kind {
    var ext := Lower(Extension(BaseName(f, sep)));
    if ext in ImageExtensions then Image
    else if ext in VideoExtensions then Video
    else Other
  }

  /** The branch depends only on the extension after the last dot of the
      base name, compared without regard to case: a name `n` (with some
      character other than a dot) followed by an extension `e`, anywhere in
      the tree, is an image exactly for `.jpg` and `.jpeg` in any case and a
      video exactly for the five video extensions in any case. */
  lemma KindByExtension(dir: string, n: string, e: string, sep: char)
    requires Free(n, {sep}) && Free(e, {sep})
    requires exists k :: 0 <= k < |n| && n[k] != '.'
    requires |e| > 0 && e[0] == '.' && Free(e[1..], {'.'})
    ensures Lower(e) in ImageExtensions ==> KindOf(PathJoin(dir, n + e, sep), sep) == Image
    ensures Lower(e) in VideoExtensions ==> KindOf(PathJoin(dir, n + e, sep), sep) == Video
    ensures Lower(e) !in ImageExtensions && Lower(e) !in VideoExtensions ==>
              KindOf(PathJoin(dir, n + e, sep), sep) == Other
  {
    var name := n + e;
    FreeConcat(n, e, {sep});
    BaseNameOfJoin(dir, name, sep);
    assert name[|n|] == '.';
    assert forall j :: |n| < j < |name| ==> name[j] == e[1..][j - |n| - 1];
    LastIndexUnique(name, '.', |n|);
    var k :| 0 <= k < |n| && n[k] != '.';
    assert name[k] == n[k];
    assert name[|n|..] == e;
    assert Extension(name) == e;
  }

  /** Upper- and mixed-case spellings select the same branches. */
  lemma ExtensionCaseIgnored()
    ensures Lower(".JPG") in ImageExtensions && Lower(".JpEg") in ImageExtensions
    ensures Lower(".MOV") in VideoExtensions
    ensures Lower(".PNG") !in ImageExtensions && Lower(".PNG") !in VideoExtensions
  {
    assert Lower(".JPG") == ".jpg" by {
      assert forall i :: 0 <= i < 4 ==> Lower(".JPG")[i] == ".jpg"[i];
    }
    assert Lower(".JpEg") == ".jpeg" by {
      assert forall i :: 0 <= i < 5 ==> Lower(".JpEg")[i] == ".jpeg"[i];
    }
    assert Lower(".MOV") == ".mov" by {
      assert forall i :: 0 <= i < 4 ==> Lower(".MOV")[i] == ".mov"[i];
    }
    assert Lower(".PNG")[1] == 'p';
  }

  /** Lines 36-37: split the EXIF value on ' ' into a date and a time part,
      each on ':'; the sub-path is the first two date fields around `sep`
      and the prefix is every field run together. */
  function ExifStamp(value: string, sep: char): (r: Lookup)
    ensures r.Found? <==> |SplitOn(value, {' '})| == 2 && ':' in SplitOn(value, {' '})[0]
    ensures r.Invalid? <==> |SplitOn(value, {' '})| != 2
    ensures r.Invalid? ==> r.reason == BadDateShape
    ensures r.Fatal? ==> r.reason == DateWithoutMonth
    ensures r.Found? ==> r.stamp.changeName && r.stamp.prefix == Remove(value, {':', ' '})
  {
    var parts := SplitOn(value, {' '});
    if |parts| != 2 then Invalid(BadDateShape)
    else
      var dt := SplitOn(parts[0], {':'});
      var tm := SplitOn(parts[1], {':'});
      SplitCount(parts[0], {':'});
      CountZero(parts[0], {':'});
      if |dt| < 2 then Fatal(DateWithoutMonth)
      else
        ExifPrefix(value, parts, dt, tm);
        Found(Stamp(dt[0] + [sep] + dt[1], Concat(dt + tm), true))
  }

  /** Running the split fields together is deleting every ':' and ' '. */
  lemma ExifPrefix(value: string, parts: seq<string>, dt: seq<string>, tm: seq<string>)
    requires parts == SplitOn(value, {' '}) && |parts| == 2
    requires dt == SplitOn(parts[0], {':'}) && tm == SplitOn(parts[1], {':'})
    ensures Concat(dt + tm) == Remove(value, {':', ' '})
  {
    var a, b := parts[0], parts[1];
    SplitJoin(value, ' ');
    JoinTwo(a, b, ' ');
    assert parts == [a, b];
    RemoveAroundSpace(a, b);
    ConcatSplit(a, {':'});
    ConcatSplit(b, {':'});
    ConcatAppend(dt, tm);
  }

  lemma RemoveAroundSpace(a: string, b: string)
    requires Free(a, {' '}) && Free(b, {' '})
    ensures Remove(a + [' '] + b, {':', ' '}) == Remove(a, {':'}) + Remove(b, {':'})
  {
    var seps := {':', ' '};
    assert a + [' '] + b == a + ([' '] + b);
    RemoveAppend(a, [' '] + b, seps);
    assert ([' '] + b)[1..] == b;
    assert Remove([' '] + b, seps) == Remove(b, seps);
    RemoveOnlyColons(a);
    RemoveOnlyColons(b);
  }

  lemma JoinTwo(a: string, b: string, sep: char)
    ensures JoinWith([a, b], sep) == a + [sep] + b
  {
    assert [a, b][1..] == [b];
    assert JoinWith([b], sep) == b;
  }

  lemma {:induction false} RemoveAppend(a: string, b: string, seps: set<char>)
    ensures Remove(a + b, seps) == Remove(a, seps) + Remove(b, seps)
    decreases |a|
  {
    if |a| > 0 {
      RemoveAppend(a[1..], b, seps);
      assert (a + b)[1..] == a[1..] + b;
    } else {
      assert a + b == b;
    }
  }

  /** In a text without spaces, deleting ':' and ' ' deletes only ':'. */
  lemma {:induction false} RemoveOnlyColons(s: string)
    requires Free(s, {' '})
    ensures Remove(s, {':', ' '}) == Remove(s, {':'})
    decreases |s|
  {
    if |s| > 0 {
      RemoveOnlyColons(s[1..]);
    }
  }

  /** Lines 25-37: the image branch. DateTimeOriginal wins over DateTime; a
      file PIL opens without an EXIF block falls through to 'Unsupported'. */
  function ImageStamp(image: ImageRead, sep: char): (r: Lookup)
    ensures r.Found? ==> r.stamp.changeName
    ensures image.Unidentified? ==> r == Invalid(CannotOpen)
    ensures image == Opened(None) ==> r == Invalid(Unsupported)
  {
    match image
    case Unidentified => Invalid(CannotOpen)
    case Opened(None) => Invalid(Unsupported)
    case Opened(Some(tags)) =>
      if "DateTimeOriginal" in tags then ExifStamp(tags["DateTimeOriginal"], sep)
      else if "DateTime" in tags then ExifStamp(tags["DateTime"], sep)
      else Invalid(NoDateTag)
  }

  /** Lines 47-54: the instant a video is filed under, and whether its name
      gets the prefix. The property date counts only inside the plausibility
      window; otherwise mtime stands, unless the date parsed from the name is
      itself plausible and strictly earlier, and only then is the name kept. */
  function ChooseVideo(now: Instant, prop: Option<Instant>, mtime: Instant, parsed: Option<Instant>): (r: (Instant, bool))
    ensures prop.Some? && InWindow(now, prop.value) ==> r == (prop.value, true)
    ensures !r.1 <==> (!(prop.Some? && InWindow(now, prop.value)) && parsed.Some?
                       && InWindow(now, parsed.value) && Before(parsed.value, mtime))
    ensures !r.1 ==> r.0 == parsed.value
    ensures r.0 == mtime || InWindow(now, r.0)
    ensures !(prop.Some? && InWindow(now, prop.value)) ==> !Before(mtime, r.0)
    ensures r.1 && !(prop.Some? && InWindow(now, prop.value)) ==> r.0 == mtime
  {
    if prop.Some? && InWindow(now, prop.value) then (prop.value, true)
    else if parsed.Some? && InWindow(now, parsed.value) && Before(parsed.value, mtime) then
      BeforeAsymmetric(parsed.value, mtime);
      (parsed.value, false)
    else (mtime, true)
  }

  lemma BeforeAsymmetric(a: Instant, b: Instant)
    requires Before(a, b)
    ensures !Before(b, a)
  {
  }

  /** The text handed to the date parser: the digits of the base name
      without its extension (lines 42-43). */
  function NameDigits(f: string, sep: char): (r: string)
    ensures AllDigits(r) && |r| <= |BaseName(f, sep)|
  {
    Digits(Stem(BaseName(f, sep)))
  }

  /** The property store reports a date inside the plausibility window. */
  predicate PropUsable(now: Instant, prop: PropRead) {
    prop.PropValue? && prop.date.Some? && InWindow(now, prop.date.value)
  }

  /** The date parsed from the name replaces mtime: it is plausible and
      strictly earlier than mtime (line 52). */
  predicate NameDateWins(f: string, src: Sources, env: Env) {
    var parsed := env.parseName(NameDigits(f, env.sep));
    parsed.Some? && InWindow(env.now, parsed.value) && Before(parsed.value, src.mtime)
  }

  /** Lines 40-57: the video branch. The prefix and sub-path encode the
      property date when it is usable, else the name's date when it wins, else
      mtime; the name is kept exactly in the middle case. */
  function VideoStamp(f: string, src: Sources, env: Env): (r: Lookup)
    ensures r.Found? <==> src.prop.PropValue?
    ensures r.Invalid? ==> r.reason == ComFailure
    ensures r.Found? ==> |r.stamp.prefix| == 14 && AllDigits(r.stamp.prefix)
    ensures r.Found? ==> r.stamp.subpath == r.stamp.prefix[..4] + "/" + r.stamp.prefix[4..6]
    ensures r.Found? ==> (!r.stamp.changeName <==> !PropUsable(env.now, src.prop) && NameDateWins(f, src, env))
    ensures r.Found? && PropUsable(env.now, src.prop) ==> r.stamp.prefix == FormatPrefix(src.prop.date.value)
    ensures r.Found? && !r.stamp.changeName ==>
              r.stamp.prefix == FormatPrefix(env.parseName(NameDigits(f, env.sep)).value)
    ensures r.Found? && r.stamp.changeName && !PropUsable(env.now, src.prop) ==>
              r.stamp.prefix == FormatPrefix(src.mtime)
  {
    match src.prop
    case ComError => Invalid(ComFailure)
    case PropValue(date) =>
      var (t, change) := ChooseVideo(env.now, date, src.mtime, env.parseName(NameDigits(f, env.sep)));
      Found(Stamp(FormatPath(t), FormatPrefix(t), change))
  }

  /** `get_timestamp(f)`. */
  function GetTimestamp(f: string, src: Sources, env: Env): (r: Lookup)
    ensures KindOf(f, env.sep) == Image ==> r == ImageStamp(src.image, env.sep)
    ensures KindOf(f, env.sep) == Video ==> r == VideoStamp(f, src, env)
    ensures KindOf(f, env.sep) == Other ==> r == Invalid(Unsupported)
    ensures r.Fatal? ==> KindOf(f, env.sep) == Image && r.reason == DateWithoutMonth
    ensures r.Found? && KindOf(f, env.sep) == Image ==> r.stamp.changeName
    ensures KindOf(f, env.sep) == Video ==> (r.Found? <==> src.prop.PropValue?)
    ensures r.Found? && KindOf(f, env.sep) == Video ==>
              (!r.stamp.changeName <==> !PropUsable(env.now, src.prop) && NameDateWins(f, src, env))
  {
    match KindOf(f, env.sep)
    case Image => ImageStamp(src.image, env.sep)
    case Video => VideoStamp(f, src, env)
    case Other => Invalid(Unsupported)
  }

  /** An EXIF value of the canonical shape `Y:M:D h:m:s` gives the sub-path
      `Y<sep>M`, the prefix `YMDhms`, and asks for the name to change. */
  lemma ExifStampOfFields(y: string, m: string, d: string, hh: string, mm: string, ss: string, sep: char)
    requires Free(y, {':', ' '}) && Free(m, {':', ' '}) && Free(d, {':', ' '})
    requires Free(hh, {':', ' '}) && Free(mm, {':', ' '}) && Free(ss, {':', ' '})
    ensures ExifStamp(y + ":" + m + ":" + d + " " + hh + ":" + mm + ":" + ss, sep)
         == Found(Stamp(y + [sep] + m, y + m + d + hh + mm + ss, true))
  {
    var date := y + [':'] + m + [':'] + d;
    var time := hh + [':'] + mm + [':'] + ss;
    var value := date + [' '] + time;
    assert y + ":" + m + ":" + d + " " + hh + ":" + mm + ":" + ss == value;
    ExifFieldsSplit(y, m, d, hh, mm, ss);
    var parts := SplitOn(value, {' '});
    var dt := SplitOn(parts[0], {':'});
    var tm := SplitOn(parts[1], {':'});
    assert dt == [y, m, d] && tm == [hh, mm, ss];
    ConcatAppend(dt, tm);
    ConcatThree(y, m, d);
    ConcatThree(hh, mm, ss);
    assert Concat(dt + tm) == y + m + d + hh + mm + ss;
    assert ExifStamp(value, sep) == Found(Stamp(dt[0] + [sep] + dt[1], Concat(dt + tm), true));
  }

  /** The layout `y:m:d hh:mm:ss` splits on ' ' into the date and the time,
      and those split on ':' into their fields. */
  lemma ExifFieldsSplit(y: string, m: string, d: string, hh: string, mm: string, ss: string)
    requires Free(y, {':', ' '}) && Free(m, {':', ' '}) && Free(d, {':', ' '})
    requires Free(hh, {':', ' '}) && Free(mm, {':', ' '}) && Free(ss, {':', ' '})
    ensures var date, time := y + [':'] + m + [':'] + d, hh + [':'] + mm + [':'] + ss;
            && SplitOn(date + [' '] + time, {' '}) == [date, time]
            && SplitOn(date, {':'}) == [y, m, d]
            && SplitOn(time, {':'}) == [hh, mm, ss]
  {
    var date := JoinWith([y, m, d], ':');
    var time := JoinWith([hh, mm, ss], ':');
    JoinThree(y, m, d, ':');
    JoinThree(hh, mm, ss, ':');
    JoinTwo(date, time, ' ');
    JoinFree([y, m, d], ':', {' '});
    JoinFree([hh, mm, ss], ':', {' '});
    JoinSplit([date, time], ' ');
    JoinSplit([y, m, d], ':');
    JoinSplit([hh, mm, ss], ':');
  }

  lemma JoinThree(a: string, b: string, c: string, sep: char)
    ensures JoinWith([a, b, c], sep) == a + [sep] + b + [sep] + c
  {
    assert [a, b, c][1..] == [b, c];
    assert [b, c][1..] == [c];
    assert JoinWith([c], sep) == c;
    assert JoinWith([b, c], sep) == b + [sep] + c;
  }

  lemma ConcatThree(a: string, b: string, c: string)
    ensures Concat([a, b, c]) == a + b + c
  {
    assert [a, b, c][1..] == [b, c];
    assert [b, c][1..] == [c];
    assert [c][1..] == [];
    assert Concat([c]) == c + Concat([]);
    assert Concat([b, c]) == b + Concat([c]);
  }

  /** The case of test_rename_media.py: `20140822132330_DSC_0016.JPG`, in
      any directory, whose EXIF block dates it 2014:08:22 13:23:30, takes the
      image branch despite the upper-case extension and is filed under
      `2014<sep>08` with prefix `20140822132330`. */
  lemma SampleImageStamp(dir: string, src: Sources, env: Env)
    requires Free("20140822132330_DSC_0016.JPG", {env.sep})
    requires src.image == Opened(Some(map["DateTimeOriginal" := "2014:08:22 13:23:30"]))
    ensures GetTimestamp(PathJoin(dir, "20140822132330_DSC_0016.JPG", env.sep), src, env)
         == Found(Stamp("2014" + [env.sep] + "08", "20140822132330", true))
  {
    var f := PathJoin(dir, "20140822132330_DSC_0016.JPG", env.sep);
    SampleKind(dir, env.sep);
    assert GetTimestamp(f, src, env) == ImageStamp(src.image, env.sep);
    SampleTags(src.image, env.sep);
    SampleExif(env.sep);
  }

  /** The sample's EXIF block is read at DateTimeOriginal. */
  lemma SampleTags(image: ImageRead, sep: char)
    requires image == Opened(Some(map["DateTimeOriginal" := "2014:08:22 13:23:30"]))
    ensures ImageStamp(image, sep) == ExifStamp("2014:08:22 13:23:30", sep)
  {
    var tags := image.exif.value;
    assert "DateTimeOriginal" in tags && tags["DateTimeOriginal"] == "2014:08:22 13:23:30";
  }

  /** The sample's name takes the image branch. */
  lemma SampleKind(dir: string, sep: char)
    requires Free("20140822132330_DSC_0016.JPG", {sep})
    ensures KindOf(PathJoin(dir, "20140822132330_DSC_0016.JPG", sep), sep) == Image
  {
    var n, e := "20140822132330_DSC_0016", ".JPG";
    assert n + e == "20140822132330_DSC_0016.JPG";
    assert Free(n, {sep}) && Free(e, {sep}) by {
      assert forall j :: 0 <= j < |n| ==> n[j] == (n + e)[j];
      assert forall j :: 0 <= j < |e| ==> e[j] == (n + e)[|n| + j];
    }
    assert n[0] != '.';
    assert Free(e[1..], {'.'});
    ExtensionCaseIgnored();
    KindByExtension(dir, n, e, sep);
  }

  /** The sample's EXIF time read with any separator. */
  lemma SampleExif(sep: char)
    ensures ExifStamp("2014:08:22 13:23:30", sep) == Found(Stamp("2014" + [sep] + "08", "20140822132330", true))
  {
    var seps := {':', ' '};
    assert Free("2014", seps) && Free("08", seps) && Free("22", seps);
    assert Free("13", seps) && Free("23", seps) && Free("30", seps);
    ExifStampOfFields("2014", "08", "22", "13", "23", "30", sep);
    assert "2014" + ":" + "08" == "2014:08";
    assert "2014:08" + ":" + "22" == "2014:08:22";
    assert "2014:08:22" + " " + "13" == "2014:08:22 13";
    assert "2014:08:22 13" + ":" + "23" == "2014:08:22 13:23";
    assert "2014:08:22 13:23" + ":" + "30" == "2014:08:22 13:23:30";
    assert "2014" + "08" + "22" == "20140822";
    assert "20140822" + "13" + "23" + "30" == "20140822132330";
  }

  /** An image's lookup reads only its EXIF block and the extension: the
      property store, mtime, clock, date parser and the rest of the name do
      not matter. */
  lemma ImageLookupIgnoresOtherSources(f: string, g: string, src: Sources, src2: Sources, env: Env, env2: Env)
    requires env.sep == env2.sep
    requires KindOf(f, env.sep) == Image && KindOf(g, env.sep) == Image
    requires src.image == src2.image
    ensures GetTimestamp(f, src, env) == GetTimestamp(g, src2, env2)
  {
  }

  /** When DateTimeOriginal is present, DateTime is never consulted. */
  lemma OriginalTagWins(tags: map<string, string>, other: string, sep: char)
    requires "DateTimeOriginal" in tags
    ensures ImageStamp(Opened(Some(tags)), sep) == ImageStamp(Opened(Some(tags["DateTime" := other])), sep)
    ensures ImageStamp(Opened(Some(tags)), sep) == ExifStamp(tags["DateTimeOriginal"], sep)
  {
  }

  /** Without DateTimeOriginal, DateTime is read in its place: the lookup is
      the one the same value would give under DateTimeOriginal. */
  lemma DateTimeFallback(tags: map<string, string>, sep: char)
    requires "DateTimeOriginal" !in tags && "DateTime" in tags
    ensures ImageStamp(Opened(Some(tags)), sep) == ExifStamp(tags["DateTime"], sep)
    ensures ImageStamp(Opened(Some(tags)), sep)
         == ImageStamp(Opened(Some(tags["DateTimeOriginal" := tags["DateTime"]])), sep)
  {
  }

  /** A file PIL opens that has neither date tag is rejected, not dropped. */
  lemma MissingDateTagsRejected(tags: map<string, string>, sep: char)
    requires "DateTimeOriginal" !in tags && "DateTime" !in tags
    ensures ImageStamp(Opened(Some(tags)), sep) == Invalid(NoDateTag)
  {
  }
}

=== FILE: walk.dfy ===
/** A reference for the rename plan: the tree flattened into its regular
    files in `os.listdir` order, each decided on its own. The first file
    whose lookup raises the uncaught error ends the run; otherwise the plan
    is the placed pairs, one per placed file, in that order. The recursive
    walk of `process_file` and `main`'s loop over the root paths are proved
    to compute exactly this. */
module Walk {
  import opened Text
  import opened Timestamp
  import opened Plan

  /** One regular file met by the walk, with everything its decision reads. */
  datatype Entry = Entry(root: string, path: string, rel: seq<string>, size: nat, src: Sources)

  /** The regular files of the tree `n` at path `f`, in listing order. */
  function Entries(root: string, f: string, rel: seq<string>, n: Node, sep: char): (es: seq<Entry>)
    ensures |es| == FileCount(n)
    decreases n, 1, 0
  {
    match n
    case File(_, size, src) => [Entry(root, f, rel, size, src)]
    case Dir(_, _) => ChildEntries(root, f, rel, n, 0, sep)
  }

  function ChildEntries(root: string, f: string, rel: seq<string>, n: Node, i: nat, sep: char): (es: seq<Entry>)
    requires n.Dir? && i <= |n.children|
    ensures |es| == ChildrenFileCount(n, i)
    decreases n, 0, |n.children| - i
  {
    if i == |n.children| then []
    else
      var c := n.children[i];
      Entries(root, PathJoin(f, c.name, sep), rel + [c.name], c, sep) + ChildEntries(root, f, rel, n, i + 1, sep)
  }

  /** The files of every root path, root after root in argument order; each
      root path is its own root. */
  function RootEntries(tops: seq<(string, Node)>, sep: char): seq<Entry>
    decreases |tops|
  {
    if |tops| == 0 then []
    else Entries(tops[0].0, tops[0].0, [], tops[0].1, sep) + RootEntries(tops[1..], sep)
  }

  function Decide(e: Entry, env: Env): Decision {
    DecideFile(e.root, e.path, e.rel, e.size, e.src, env)
  }

  /** Each file's decision, in order. */
  function Decisions(es: seq<Entry>, env: Env): (ds: seq<Decision>)
    ensures |ds| == |es|
    ensures forall i :: 0 <= i < |es| ==> ds[i] == Decide(es[i], env)
  {
    seq(|es|, i requires 0 <= i < |es| => Decide(es[i], env))
  }

  /** The decisions taken one after another: an abort ends the run, placed
      pairs are collected. */
  function Run(ds: seq<Decision>): PlanOutcome
    decreases |ds|
  {
    if |ds| == 0 then Planned([])
    else
      match ds[0]
      case Abort(p, why) => Aborted(p, why)
      case Skip => Run(ds[1..])
      case Place(m) =>
        match Run(ds[1..])
        case Aborted(p, why) => Aborted(p, why)
        case Planned(ms) => Planned([m] + ms)
  }

  function RunEntries(es: seq<Entry>, env: Env): PlanOutcome {
    Run(Decisions(es, env))
  }

  /** The pairs of the placed decisions, in order. */
  function PlacedMoves(ds: seq<Decision>): seq<Move>
    decreases |ds|
  {
    if |ds| == 0 then []
    else (if ds[0].Place? then [ds[0].move] else []) + PlacedMoves(ds[1..])
  }

  /** A run ends at its first abort, with that abort's path and reason. */
  lemma {:induction false} RunAbortsAtFirst(ds: seq<Decision>)
    ensures Run(ds).Aborted? ==>
              exists i :: && 0 <= i < |ds| && ds[i].Abort?
                          && (forall j :: 0 <= j < i ==> !ds[j].Abort?)
                          && Run(ds) == Aborted(ds[i].path, ds[i].why)
    decreases |ds|
  {
    if |ds| > 0 && Run(ds).Aborted? && !ds[0].Abort? {
      var rest := ds[1..];
      RunAbortsAtFirst(rest);
      var i :| && 0 <= i < |rest| && rest[i].Abort?
               && (forall j :: 0 <= j < i ==> !rest[j].Abort?)
               && Run(rest) == Aborted(rest[i].path, rest[i].why);
      assert Run(ds) == Run(rest);
      assert ds[i + 1] == rest[i];
      forall j | 0 <= j < i + 1
        ensures !ds[j].Abort?
      {
        if j > 0 {
          assert ds[j] == rest[j - 1];
        }
      }
    }
  }

  /** A run plans exactly when no decision aborts, and then it plans the
      placed pairs in order. */
  lemma {:induction false} RunPlansPlaced(ds: seq<Decision>)
    ensures Run(ds).Planned? <==> forall i :: 0 <= i < |ds| ==> !ds[i].Abort?
    ensures Run(ds).Planned? ==> Run(ds).moves == PlacedMoves(ds)
    decreases |ds|
  {
    if |ds| > 0 {
      var rest := ds[1..];
      RunPlansPlaced(rest);
      if forall i :: 0 <= i < |ds| ==> !ds[i].Abort? {
        assert forall i :: 0 <= i < |rest| ==> !rest[i].Abort? by {
          forall i | 0 <= i < |rest|
            ensures !rest[i].Abort?
          {
            assert rest[i] == ds[i + 1];
          }
        }
      } else {
        var i :| 0 <= i < |ds| && ds[i].Abort?;
        if i > 0 {
          assert rest[i - 1] == ds[i];
        }
      }
    }
  }

  /** One outcome followed by another: the first abort wins, and plans are
      concatenated. */
  function Then(o1: PlanOutcome, o2: PlanOutcome): PlanOutcome {
    if o1.Aborted? then o1
    else if o2.Aborted? then o2
    else Planned(o1.moves + o2.moves)
  }

  /** Running two lists of decisions one after the other is running their
      concatenation. */
  lemma {:induction false} RunAppend(a: seq<Decision>, b: seq<Decision>)
    ensures Run(a + b) == Then(Run(a), Run(b))
    decreases |a|
  {
    if |a| == 0 {
      assert a + b == b;
      assert Run(b).Planned? ==> [] + Run(b).moves == Run(b).moves;
    } else {
      assert (a + b)[0] == a[0];
      assert (a + b)[1..] == a[1..] + b;
      RunAppend(a[1..], b);
      var o1, o2 := Run(a[1..]), Run(b);
      if a[0].Place? && o1.Planned? && o2.Planned? {
        assert [a[0].move] + (o1.moves + o2.moves) == ([a[0].move] + o1.moves) + o2.moves;
      }
    }
  }

  lemma RunEntriesAppend(a: seq<Entry>, b: seq<Entry>, env: Env)
    ensures RunEntries(a + b, env) == Then(RunEntries(a, env), RunEntries(b, env))
  {
    assert Decisions(a + b, env) == Decisions(a, env) + Decisions(b, env);
    RunAppend(Decisions(a, env), Decisions(b, env));
  }

  /** A run over files ends exactly when some file's lookup raises; it ends
      at the first such file, with the month-less date as the reason; a run
      that does not end plans the placed pairs in order. */
  lemma RunEntriesMeaning(es: seq<Entry>, env: Env)
    ensures RunEntries(es, env).Aborted? <==> exists i :: 0 <= i < |es| && Decide(es[i], env).Abort?
    ensures RunEntries(es, env).Aborted? ==>
              exists i :: && 0 <= i < |es| && Decide(es[i], env).Abort?
                          && (forall j :: 0 <= j < i ==> !Decide(es[j], env).Abort?)
                          && RunEntries(es, env) == Aborted(es[i].path, DateWithoutMonth)
    ensures RunEntries(es, env).Planned? ==> RunEntries(es, env).moves == PlacedMoves(Decisions(es, env))
  {
    var ds := Decisions(es, env);
    RunAbortsAtFirst(ds);
    RunPlansPlaced(ds);
    if Run(ds).Aborted? {
      var i :| && 0 <= i < |ds| && ds[i].Abort?
               && (forall j :: 0 <= j < i ==> !ds[j].Abort?)
               && Run(ds) == Aborted(ds[i].path, ds[i].why);
      assert ds[i] == Decide(es[i], env);
    }
  }

  /** The recursive walk of `process_file` plans what the flattened run
      plans. */
  lemma {:induction false} NodeIsRun(root: string, f: string, rel: seq<string>, n: Node, env: Env)
    ensures ProcessNode(root, f, rel, n, env) == RunEntries(Entries(root, f, rel, n, env.sep), env)
    decreases n, 1, 0
  {
    match n
    case File(_, size, src) =>
      var es := Entries(root, f, rel, n, env.sep);
      var ds := Decisions(es, env);
      var d := DecideFile(root, f, rel, size, src, env);
      assert es[0] == Entry(root, f, rel, size, src);
      assert ds == [d];
      assert Run(ds[1..]) == Planned([]);
      if d.Place? {
        assert Run(ds) == Planned([d.move] + []);
        assert [d.move] + [] == [d.move];
      }
    case Dir(_, _) => ChildrenIsRun(root, f, rel, n, 0, env);
  }

  lemma {:induction false} ChildrenIsRun(root: string, f: string, rel: seq<string>, n: Node, i: nat, env: Env)
    requires n.Dir? && i <= |n.children|
    ensures ProcessChildren(root, f, rel, n, i, env) == RunEntries(ChildEntries(root, f, rel, n, i, env.sep), env)
    decreases n, 0, |n.children| - i
  {
    if i < |n.children| {
      var c := n.children[i];
      var fc := PathJoin(f, c.name, env.sep);
      NodeIsRun(root, fc, rel + [c.name], c, env);
      ChildrenIsRun(root, f, rel, n, i + 1, env);
      RunEntriesAppend(Entries(root, fc, rel + [c.name], c, env.sep), ChildEntries(root, f, rel, n, i + 1, env.sep), env);
      assert ProcessChildren(root, f, rel, n, i, env)
          == Then(ProcessNode(root, fc, rel + [c.name], c, env), ProcessChildren(root, f, rel, n, i + 1, env));
    }
  }

  /** `main`'s loop plans what the flattened run over all root paths plans:
      each root's plan in argument order, up to the first abort. */
  lemma {:induction false} PlanRootsIsRun(tops: seq<(string, Node)>, env: Env)
    ensures PlanRoots(tops, env) == RunEntries(RootEntries(tops, env.sep), env)
    decreases |tops|
  {
    if |tops| > 0 {
      var es := Entries(tops[0].0, tops[0].0, [], tops[0].1, env.sep);
      NodeIsRun(tops[0].0, tops[0].0, [], tops[0].1, env);
      PlanRootsIsRun(tops[1..], env);
      RunEntriesAppend(es, RootEntries(tops[1..], env.sep), env);
      assert PlanRoots(tops, env) == Then(PlanPath(tops[0].0, tops[0].1, env), PlanRoots(tops[1..], env));
    }
  }

  /** `process_file` on a tree: it raises exactly when some file's lookup
      raises, at the first such file in listing order; otherwise its plan is
      one pair per placed file, in listing order. */
  lemma ProcessNodeMeaning(root: string, f: string, rel: seq<string>, n: Node, env: Env)
    ensures var es, o := Entries(root, f, rel, n, env.sep), ProcessNode(root, f, rel, n, env);
            && (o.Aborted? <==> exists i :: 0 <= i < |es| && Decide(es[i], env).Abort?)
            && (o.Aborted? ==>
                  exists i :: && 0 <= i < |es| && Decide(es[i], env).Abort?
                              && (forall j :: 0 <= j < i ==> !Decide(es[j], env).Abort?)
                              && o == Aborted(es[i].path, DateWithoutMonth))
            && (o.Planned? ==> o.moves == PlacedMoves(Decisions(es, env)))
  {
    NodeIsRun(root, f, rel, n, env);
    RunEntriesMeaning(Entries(root, f, rel, n, env.sep), env);
  }

  /** `main`'s plan, stated the same way over the files of all root paths. */
  lemma PlanRootsMeaning(tops: seq<(string, Node)>, env: Env)
    ensures var es, o := RootEntries(tops, env.sep), PlanRoots(tops, env);
            && (o.Aborted? <==> exists i :: 0 <= i < |es| && Decide(es[i], env).Abort?)
            && (o.Aborted? ==>
                  exists i :: && 0 <= i < |es| && Decide(es[i], env).Abort?
                              && (forall j :: 0 <= j < i ==> !Decide(es[j], env).Abort?)
                              && o == Aborted(es[i].path, DateWithoutMonth))
            && (o.Planned? ==> o.moves == PlacedMoves(Decisions(es, env)))
  {
    PlanRootsIsRun(tops, env);
    RunEntriesMeaning(RootEntries(tops, env.sep), env);
  }
}
